=== FILE: README.md ===
# A verified model of a small hidden Markov model engine

This project models the exactly computable core of a Gaussian-emission hidden
Markov model engine (`nlp/hmm.py`) and the sentence stitching of the
part-of-speech tagger built on it (`nlp/pos_hmm.py`). It also proves the
properties the code relies on. Probabilities are Dafny `real`, so they are
exact; "## Left out" says which floating-point effects that drops. Labels are
any equality type.

- `outcomes.dfy`: `Option` and `Result`, for the error paths.
- `counters.dfy` (module `Counters`): the `Counter` / `CounterMap` behaviour
  the engine relies on.
  - Counters and tables are association lists in iteration order.
  - A missing key reads as 0.0 and a missing row as an empty counter.
  - `+=` and `=` keep the entries in the order they were first written.
  - `normalize` divides by the sum and leaves a zero-sum counter alone.
  - `arg_max` returns the first maximal entry in iteration order.
- `training.dfy` (module `Training`): `train` (hmm.py:23-57).
  - A first pass counts labels, sums emissions and counts transitions. The
    first element's transition comes from the pseudo-label "start", written
    `Start`.
  - The transition table is row-normalised and mirrored into the reverse
    table.
  - The sums become means.
  - A second pass accumulates the unbiased sample variance of every label
    seen more than once.
  - `labels` is the key list of that accumulator.
- `viterbi.dfy` (module `Viterbi`): the lattice of `label` (hmm.py:73-105).
  - It has a uniform prior row, a max/arg-max recurrence over
    `reverse_transition` and backpointer rows, then the backtracking walk.
  - It is generic in the transition function and in a per-step weight. The
    source's weight is the constant 1.0: the emission likelihoods computed at
    hmm.py:86 never reach a score. Textbook Viterbi is the instance where the
    weight is the emission density.
  - It proves the textbook optimality, for any non-negative weight: with no
    negative weights or probabilities, no label path through the lattice
    scores more than the backtracked one. This is the optimality pos_hmm.py:75
    evidently intends; see "## Left out" for how the source's own assertion
    differs.
- `decoder.dfy` (module `Decoder`): `label` on a trained model, with its error
  paths.
  - It includes the as-written result, which drops a label, and the corrected
    one.
  - It also holds the inverse-CDF transition selection of
    `__sample_transition` (hmm.py:107-114), with the uniform draw as a
    parameter.
- `pos_stream.dfy` (module `PosStream`): `merge_stream` (pos_hmm.py:8-23) and
  the per-sentence count of correct tags (pos_hmm.py:63-66).

Where the code and its documentation disagree, the model follows the code:

- The decoder's label set is the set of labels seen at least twice, not every
  label seen. Only those labels get a variance entry (hmm.py:50-52, 57).
- `label` returns one label fewer than there are observations (hmm.py:100).
  See Findings.

## Model

| member | source | states |
|---|---|---|
| Counters.Get | nlp/hmm.py:30-33 | a key that is absent reads as 0.0, and no lookup in a counter without negative entries is negative |
| Counters.Add | nlp/hmm.py:30-31 | `c[k] += x` adds x to k's lookup and changes no other key's; the key list gains k at the end exactly when k was absent; distinct keys stay distinct |
| Counters.AddSum | nlp/hmm.py:30-31 | `+=` adds exactly x to the counter's sum, and adding a non-negative amount keeps every entry non-negative |
| Counters.Put | nlp/hmm.py:43 | `c[k] = x` makes k read x and leaves every other key; k is appended only when absent; keys stay distinct |
| Counters.DivideSpec | nlp/hmm.py:38 | after dividing, every lookup and the sum are the old ones divided by d, and the keys are unchanged |
| Counters.Normalize | nlp/hmm.py:38 | `normalize()` keeps the keys. A non-zero-sum counter ends up summing to 1, with every lookup divided by the old sum. A zero-sum counter is unchanged. Without negative entries, every value lies in [0, 1] |
| Counters.MaxValue | nlp/hmm.py:93 | `max(values)` bounds every value of the counter and is one of them |
| Counters.ArgMaxIndex | nlp/hmm.py:94 | `arg_max()` picks a maximal entry, and every entry before it is strictly smaller (ties go to the first) |
| Counters.Row | nlp/hmm.py:33 | a table row that is absent reads as the empty counter |
| Counters.WithRow | nlp/hmm.py:33-35 | an update through `cm[k][...]` replaces row k and no other; a missing row is appended; sources stay distinct |
| Counters.WithRowTotal | nlp/hmm.py:33-35 | replacing a row changes the table total by exactly the change in that row's sum |
| Counters.NormalizeRows | nlp/hmm.py:38 | the table's `normalize()` normalises every row and adds or removes no source |
| Training.Means | nlp/hmm.py:46-47 | every label with an emission sum gets that sum divided by its count, and no other label gets a mean |
| Training.LabelTallies | nlp/hmm.py:29-31 | after the first pass, `label_counts[l]` is the number of elements labelled l and the emission sum is the sum of their emissions; exactly the labels that occur are keys |
| Training.TransitionTallies | nlp/hmm.py:29-36 | raw `transition[a][b]` is the number of elements labelled b whose source is a ("start" for the first element, the previous label otherwise), and the total raw count equals the sequence length |
| Training.RecordGet | nlp/hmm.py:33-35 | recording one transition adds 1 to its own entry and to no other |
| Training.RecordRow | nlp/hmm.py:33-35 | recording one transition adds 1 to its source row's sum and to no other row's, and gives the source a row |
| Training.RecordTotal | nlp/hmm.py:33-35 | recording one transition adds 1 to the table total and keeps the sources distinct |
| Training.TransitionRows | nlp/hmm.py:29-36 | every raw row sums to the number of transitions out of its source, and a source has a row exactly when it occurs |
| Training.TransitionRowsValid | nlp/hmm.py:29-36 | raw rows have distinct destinations and no negative entries |
| Training.AccumulateAt | nlp/hmm.py:49-52 | the second-pass accumulator of a label counted more than once holds the sum of its elements' terms; any other label reads 0 |
| Training.AccumulateKeys | nlp/hmm.py:49-52 | the accumulator has an entry exactly for the labels of the sequence counted more than once, with distinct keys; it has no negative entry when no term is negative |
| Training.TermSumVariance | nlp/hmm.py:52 | adding `(e - m)^2 / (c - 1)` over the elements of a label gives its squared deviations from m divided by c - 1 |
| Training.VarianceTermNonNegative | nlp/hmm.py:52 | no single variance term is negative |
| Training.SecondPassAt | nlp/hmm.py:49-52 | the second pass gives a label counted more than once its squared deviations from its mean divided by count - 1, and every other label nothing |
| Training.SecondPassKeys | nlp/hmm.py:49-52 | the variance accumulator has an entry, never negative, exactly for the labels of the sequence counted more than once |
| Training.MirrorRowSpec | nlp/hmm.py:42-43 | the inner loop writes `reverse[b][a] = p` for every entry (b, p) of row a and changes nothing else |
| Training.MirrorFromAt | nlp/hmm.py:41-43 | after the outer loop, `reverse[b][a]` is `table[a][b]` where that entry exists and is untouched otherwise |
| Training.MirrorSpec | nlp/hmm.py:41-43 | the reverse table is an exact mirror: `reverse[b][a] == table[a][b]` for all pairs, and `reverse[b]` has key a exactly when `table[a]` has key b |
| Training.TrainTransitions | nlp/hmm.py:29-38 | a trained transition row exists exactly for the sources that occur. Each row sums to 1 with entries in [0, 1], and entry b is the fraction of the source's transitions that go to b |
| Training.TrainReverse | nlp/hmm.py:41-43 | the trained reverse table mirrors the trained transition table exactly |
| Training.TrainMeans | nlp/hmm.py:46-47 | a label has a mean exactly when it occurs, and the mean is its emission sum divided by its count |
| Training.TrainVarianceAt | nlp/hmm.py:49-52 | a label seen more than once has variance `Σ(e - mean)^2 / (count - 1)`; every other label has 0 |
| Training.TrainVariance | nlp/hmm.py:49-57 | the variance accumulator is as in TrainVarianceAt for every label and never negative; `labels` holds, without repetition, exactly the labels seen more than once |
| Training.TrainIsTrained | nlp/hmm.py:23-57 | a trained model has distinct labels and no negative reverse-transition entry |
| Viterbi.Ones | nlp/hmm.py:81 | every label is counted once, so the counter sums to the number of labels |
| Viterbi.Prior | nlp/hmm.py:80-82 | score row 0 gives every label 1/\|labels\|, in label order, and sums to 1 |
| Viterbi.Products | nlp/hmm.py:92 | `scores[pos] * reverse_transition[l]` keeps the keys of the score row, and its lookup at every key p is `scores[pos][p]` times the probability of stepping from p into l; a key missing from the score row reads as 0 |
| Viterbi.Best | nlp/hmm.py:94 | the backpointer chosen for l is a label of the previous row |
| Viterbi.NextScores | nlp/hmm.py:91-93 | score row pos + 1 has one entry per label, in label order |
| Viterbi.NextScoresAt | nlp/hmm.py:93 | `scores[pos+1][l]` is l's weight times the largest product over row pos |
| Viterbi.BestAttains | nlp/hmm.py:92-94 | the arg-max predecessor attains the largest product, and that product bounds every other product |
| Viterbi.NextBack | nlp/hmm.py:94 | every label gets a backpointer, and every backpointer is a key of the previous row |
| Viterbi.ScoreRow | nlp/hmm.py:80-93 | every score row has one entry per label, in label order |
| Viterbi.BackRow | nlp/hmm.py:91-94 | a backpointer row maps every label to a label |
| Viterbi.BackRows | nlp/hmm.py:77-94 | n observations give n backpointer rows, each the row computed at its position and each closed over the labels |
| Viterbi.Recurrence | nlp/hmm.py:91-94 | `scores[t+1][l]` is l's weight times `scores[t][b] * trans(l, b)` for `b = backtrack[t][l]`, and no predecessor p gives a larger `scores[t][p] * trans(l, p)` |
| Viterbi.Final | nlp/hmm.py:98 | the label chosen at the last row is a label |
| Viterbi.FinalIsBest | nlp/hmm.py:98 | no label of the last row scores more than the chosen one |
| Viterbi.Walk | nlp/hmm.py:97-105 | walking back from row hi to row lo + 1 collects hi - lo labels in chronological order, ending at the starting label, each the backpointer of the next |
| Viterbi.Decode | nlp/hmm.py:97-105 | `label` as written returns n - 1 labels for n observations (none for none), linked by backpointers and ending at the arg-max of the last row |
| Viterbi.DecodeAll | nlp/hmm.py:97-105 | the corrected loop returns n labels, linked by backpointers from row 1 on and ending at the arg-max of the last row |
| Viterbi.Trace | nlp/hmm.py:100-102 | the backpointer path ending in c at row t has t + 1 labels and ends in c |
| Viterbi.BestPath | nlp/hmm.py:98-102 | the fully backtracked path has n + 1 labels and ends at the arg-max of the last row |
| Viterbi.Follow | nlp/hmm.py:100-102 | following any choice of predecessors back from c at row t gives t + 1 labels ending in c |
| Viterbi.TraceFollows | nlp/hmm.py:100-102 | reading stored backpointers follows whichever choice they record |
| Viterbi.ChoiceScore | nlp/hmm.py:89-94 | the path along the backpointers that ends in c at row t scores exactly `scores[t][c]` |
| Viterbi.ScoreBound | nlp/hmm.py:89-94 | with no negative weights or transition probabilities, no path of t + 1 labels ending in l scores more than `scores[t][l]` |
| Viterbi.BestPathOptimal | nlp/pos_hmm.py:75 | Viterbi optimality: with no negative weights or transition probabilities, no path of n + 1 labels scores more than the backtracked path |
| Viterbi.WalkFollowsTrace | nlp/hmm.py:100-104 | the backtracking loop reads off rows lo + 1 to hi of the backpointer path ending in its starting label |
| Viterbi.DecodeIsBestPathSuffix | nlp/hmm.py:97-105 | the as-written result is the backtracked path without its first two rows; the corrected one drops only the prior row |
| Decoder.Label | nlp/hmm.py:73-105 | `label` on a trained model returns \|e\| - 1 labels (none for no observation), all from the label set. The model reports a failure in exactly two cases: no labels with two or more observations (see Left out for what the source does there), and a zero deviation with at least one observation, both decided over exact reals (see Left out for the double-precision variance) |
| Decoder.LabelAligned | nlp/hmm.py:73-105 | the corrected `label` returns exactly one label per observation, all from the label set, with the same error cases, except that a single observation already needs a label |
| Decoder.LabelOptimal | nlp/hmm.py:89-104 | the labels returned are the backtracked path without its first two rows, and no path over the lattice's rows scores more than that path under the lattice's own score, whose weight is 1.0 (hmm.py:92-93); this is not the emission-aware score of pos_hmm.py:75, see Left out |
| Decoder.LabelAlignedOptimal | nlp/hmm.py:100-105 | the corrected labels are the optimal path without its prior row |
| Decoder.LabelDropsFirst | nlp/hmm.py:100 | one observation decodes to no label as written, and to one label when corrected |
| Decoder.SelectIndex | nlp/hmm.py:110-114 | subtracting probabilities in row order stops at the first entry whose running sum reaches the draw; None (the failed assertion) means no running sum does |
| Decoder.ReachesTail | nlp/hmm.py:110-112 | after subtracting the first probability, the loop continues on the rest of the row with what is left of the draw |
| Decoder.SampleTransition | nlp/hmm.py:107-114 | a selected next state is a destination of the source's transition row |
| Decoder.PrefixAtMostSum | nlp/hmm.py:110-112 | no running sum of a row without negative entries exceeds the row's sum |
| Decoder.SelectSucceeds | nlp/hmm.py:110-114 | on a non-empty row without negative entries, selection succeeds exactly when the draw is at most the row's sum |
| Decoder.SampleTrained | nlp/hmm.py:107-114 | on a trained model, every draw of at most 1 from a source that occurred yields a next state |
| PosStream.Framed | nlp/pos_hmm.py:14-21 | a framed sentence is START, its items in order, then STOP |
| PosStream.MergeStream | nlp/pos_hmm.py:8-23 | the merged stream is as long as the shorter of the framed tag stream and the framed word stream; empty input gives an empty result |
| PosStream.WidthAppend | nlp/pos_hmm.py:13-21 | one more sentence adds its length plus two markers to the width |
| PosStream.StreamWidth | nlp/pos_hmm.py:13-21 | a framed stream has \|sentence\| + 2 tokens per sentence |
| PosStream.StreamConcat | nlp/pos_hmm.py:13-21 | framing concatenated inputs concatenates the framed streams |
| PosStream.StreamPart | nlp/pos_hmm.py:13-21 | sentence k appears framed by START and STOP, right after the tokens of the sentences before it (sentences stay in input order) |
| PosStream.AlignedWidths | nlp/pos_hmm.py:13-21 | when every sentence has as many tags as words, the tag and word streams have equal length |
| PosStream.MergeLength | nlp/pos_hmm.py:23 | when every sentence has as many tags as words, `zip` cuts nothing off: Σ(\|sentence\| + 2) pairs |
| PosStream.MergeSingle | nlp/pos_hmm.py:13-23 | one sentence merges into its framed tags zipped with its framed words |
| PosStream.MergeConcat | nlp/pos_hmm.py:13-23 | merging concatenated streams concatenates the results when the first part has as many tags as words in every sentence |
| PosStream.MergeAppend | nlp/pos_hmm.py:13-23 | appending an aligned sentence appends its framed tags zipped with its framed words |
| PosStream.MergeSentence | nlp/pos_hmm.py:13-23 | sentence k lands, framed and zipped, right after the pairs of the sentences before it |
| PosStream.MarkersAligned | nlp/pos_hmm.py:23 | in an aligned merged stream, START pairs with START, STOP with STOP, and tags with words |
| PosStream.CountPrefix | nlp/pos_hmm.py:63-66 | the count over the first n zipped positions is the number of hits there, and never exceeds the number of positions whose gold label is not a marker |
| PosStream.CorrectCount | nlp/pos_hmm.py:63-66 | `num_correct` is the number of zipped positions whose gold label is not a marker and whose guess matches it, so it is at most the number of non-marker positions |
| PosStream.PerfectGuess | nlp/pos_hmm.py:64-66 | a guess equal to the gold labels is credited with every non-marker position |
| PosStream.FramedItems | nlp/pos_hmm.py:65 | a framed sentence has exactly one non-marker position per word |
| PosStream.FramedScore | nlp/pos_hmm.py:63-66 | guessing a framed sentence exactly scores one per word, with the markers skipped |

## Left out

- The Gaussian density closures (hmm.py:59-62, 64-71), the square root of the
  variance (hmm.py:55) and `random.gauss` (hmm.py:117) involve transcendental
  floating point. They are not modelled.
  - The model keeps the variance.
  - Only one consequence of the closures is kept. Each closure looks `label`
    up late, so all of them use the deviation of the last label. A zero there
    divides by zero once any observation is decoded; this is
    `Decoder.Degenerate` and the `DegenerateEmission` error.
  - The densities never enter a score (hmm.py:86 against 92-93), so leaving
    them out changes no label.
- `sample` (hmm.py:119-129) is left out: `random.choice`, the burn-in loop and
  the infinite generator. Only the selection step is modelled.
- SelectIndex: as written, `__sample_transition` always raises at hmm.py:108,
  because Python's `random.sample()` needs a population and a count and is
  called with neither, so no state is ever selected. The model takes the
  evidently intended uniform draw from [0, 1), as `random.random()` gives it
  at hmm.py:153, as the parameter u.
- `toy_problem` (hmm.py:131-197) and `pos_problem` (pos_hmm.py:25-80) are
  drivers that read corpora, time, print and slice datasets. They are not
  modelled, except for the correct-count of pos_hmm.py:63-66.
- The debug `print` at hmm.py:99 is left out.
- The class-level tables (hmm.py:14-21) are shared by every instance and
  accumulate across calls to `train`. The model trains one fresh `Model` per
  call.
- `score`, the `debug=` keyword and the `START_LABEL` / `STOP_LABEL` imports
  used by pos_hmm.py are not defined in hmm.py. The markers are modelled as two
  constructors of `PosStream.Token`, distinct from every tag and word. The
  path score is defined only as far as the optimality lemma needs it
  (`Viterbi.PathScore`).
- The `Counter` and `CounterMap` modules are not part of this model. Their
  behaviour is specified by the contracts in `Counters`.
  - Iteration order is fixed to insertion order. Python 2 dictionaries
    iterate in hash order, which decides ties in `arg_max` and the order of
    the label set.
  - `Viterbi.Products` takes the keys of the score row as the key set of
    `scores[pos] * reverse_transition[l]`, with a missing factor reading as 0.
    The source's multiplication over a key a row lacks is not visible.
- `Source` models the pseudo-label "start" as its own constructor. A real
  label equal to the string "start", or a false-valued label that
  `if last_label:` (hmm.py:32) would treat as "no previous label", is not
  reproduced.
- Decoder.Label: with an empty label set, every score row is empty, and
  hmm.py:98 calls `arg_max` on an empty counter for every number of
  observations. That result is not visible here.
  - For at most one observation the loop at hmm.py:100 does not run. The
    model returns `Success([])`, assuming that `arg_max` on an empty counter
    does not raise.
  - Under the same assumption, for n >= 2 observations the source returns
    n - 1 labels. The loop appends that result and then n - 2 `None`s read
    from the empty `defaultdict` backpointer rows (hmm.py:77), and
    `states.reverse()` (hmm.py:104) puts the `None`s first. The model
    reports this as `NotTrained`.
- Decoder.LabelOptimal: it does not state the assertion of pos_hmm.py:75.
  - Its path score uses the weight 1.0, as the lattice at hmm.py:92-93 does,
    so it ignores the emissions. The `score(zip(labels, emissions))` of
    pos_hmm.py:69-70 takes them, and `score` is not defined in hmm.py. Under
    a score that uses the emissions, the as-written `label` guarantees
    nothing. Only `Viterbi.BestPathOptimal`, with the emission density as its
    weight, would.
  - The two sides of the comparison differ. Line 75 compares the n - 1
    returned labels, zipped against n emissions and so shifted by one
    observation, with the n gold labels. `Decoder.LabelOptimal` compares
    lattice paths of n + 1 labels that include the prior row.
- Floating point: probabilities and scores are exact reals here, where the
  source computes in doubles. Three effects of that are not modelled.
  - Underflow of the lattice products. With the weight 1.0 every score is a
    product of transition probabilities, one factor per observation. Over a
    long input (the driver at hmm.py:192-194 decodes 10000 observations)
    these reach 0.0 in doubles. Every `max` at hmm.py:93 is then 0.0 and
    `arg_max` at hmm.py:94 and 98 breaks the ties, so the source's path can
    differ from `Viterbi.Decode`, whose exact scores do not underflow.
  - Rounding of normalised row sums. A row divided by its sum (hmm.py:38) can
    sum to slightly less than 1.0 in doubles, which leaves the failed
    assertion at hmm.py:114 reachable for a draw just below 1. The "sums to
    1" of `Training.TrainTransitions` and the guarantee of
    `Decoder.SampleTrained` hold in exact arithmetic only.
  - Rounding of the variance. `Decoder.Degenerate` decides whether the
    variance is exactly 0 over exact reals, and in doubles that can go
    either way.
    - Three emissions 0.1 give a double mean of 0.10000000000000002 and a
      tiny non-zero variance. The source then divides by a non-zero
      deviation at hmm.py:61 and decodes, where the model reports
      `DegenerateEmission`.
    - Two emissions 1e-170 and 2e-170 have squared deviations that
      underflow to 0.0 at hmm.py:52, so the source divides by zero at
      hmm.py:61. The model's exact variance is positive, and it decodes.
    - The "exactly two cases" of `Decoder.Label` hold in exact arithmetic
      only.
- Decoder.Degenerate: only the zero-deviation division is modelled as a
  failure. Overflow and underflow of the floating-point density are not.

## Findings

| source | as written | input that shows it | evidently intended | confidence | as-written member | corrected member |
|---|---|---|---|---|---|---|
| nlp/hmm.py:100 | the backtracking loop runs `pos` from `len(backtrack) - 1` down to 1, so `label` returns one label fewer than there are observations; the labels line up with observations 2 to n | a trained model with labels whose last label has non-zero variance, and a single observation: `label([y])` returns `[]` | one label per observation, with the loop running down to 0 | not executed | Decoder.Label (with Decoder.LabelDropsFirst) | Decoder.LabelAligned (with Decoder.LabelAlignedOptimal) |

=== FILE: counters.dfy ===
/** Counters as the HMM engine uses them: dictionaries from keys to real
    numbers in which a missing key reads as 0.0, and tables of such
    counters indexed by a row key (missing rows read as empty counters).

    A counter is an association list kept in insertion order, which is
    the order in which it is iterated and so the order that breaks ties in
    `ArgMaxIndex`. Lookups and updates act on the first entry with a key,
    which makes every operation meaningful on any list; the updates keep
    keys distinct when they start distinct. */
module Counters {

  type Counter<K> = seq<(K, real)>

  type CounterMap<K, V> = seq<(K, Counter<V>)>

  /** The keys of an association list, in iteration order. */
  function Keys<K, V>(s: seq<(K, V)>): seq<K>
  {
    seq(|s|, i requires 0 <= i < |s| => s[i].0)
  }

  predicate Distinct<K(==)>(ks: seq<K>)
  {
    forall i, j :: 0 <= i < j < |ks| ==> ks[i] != ks[j]
  }

  predicate NonNegative<K>(c: Counter<K>)
  {
    forall i :: 0 <= i < |c| ==> c[i].1 >= 0.0
  }

  lemma KeysTail<K, V>(s: seq<(K, V)>)
    requires |s| > 0
    ensures Keys(s) == [s[0].0] + Keys(s[1..])
  {
  }

  lemma DistinctTail<K>(ks: seq<K>)
    requires |ks| > 0 && Distinct(ks)
    ensures Distinct(ks[1..]) && ks[0] !in ks[1..]
  {
  }

  /** c[k]: the value of the first entry with key k, 0.0 when there is none. */
  function Get<K(==)>(c: Counter<K>, k: K): (v: real)
    ensures k !in Keys(c) ==> v == 0.0
    ensures NonNegative(c) ==> v >= 0.0
  {
    if |c| == 0 then 0.0
    else KeysTail(c); if c[0].0 == k then c[0].1 else Get(c[1..], k)
  }

  /** With distinct keys, the entry at position i is the one Get finds. */
  lemma {:induction false} GetAt<K>(c: Counter<K>, i: nat)
    requires Distinct(Keys(c)) && i < |c|
    ensures Get(c, c[i].0) == c[i].1
  {
    if i > 0 {
      KeysTail(c);
      DistinctTail(Keys(c));
      assert c[0].0 != c[i].0 by { assert Keys(c)[0] != Keys(c)[i]; }
      GetAt(c[1..], i - 1);
    }
  }

  function Sum<K>(c: Counter<K>): real
  {
    if |c| == 0 then 0.0 else c[0].1 + Sum(c[1..])
  }

  /** No entry of a counter without negative entries exceeds its sum. */
  lemma {:induction false} EntryAtMostSum<K>(c: Counter<K>, i: nat)
    requires NonNegative(c) && i < |c|
    ensures 0.0 <= c[i].1 <= Sum(c)
  {
    if i > 0 {
      EntryAtMostSum(c[1..], i - 1);
      assert c[0].1 >= 0.0;
    } else if |c| > 1 {
      SumNonNegative(c[1..]);
    }
  }

  lemma {:induction false} SumNonNegative<K>(c: Counter<K>)
    requires NonNegative(c)
    ensures Sum(c) >= 0.0
  {
    if |c| > 0 {
      SumNonNegative(c[1..]);
    }
  }

  /** c[k] += x, appending the key when it is missing. */
  function Add<K(==,!new)>(c: Counter<K>, k: K, x: real): (r: Counter<K>)
    ensures forall k' :: Get(r, k') == Get(c, k') + if k' == k then x else 0.0
    ensures Keys(r) == if k in Keys(c) then Keys(c) else Keys(c) + [k]
    ensures Distinct(Keys(c)) ==> Distinct(Keys(r))
  {
    if |c| == 0 then [(k, x)]
    else if c[0].0 == k then
      KeysTail(c); KeysTail([(k, c[0].1 + x)] + c[1..]);
      assert ([(k, c[0].1 + x)] + c[1..])[1..] == c[1..];
      [(k, c[0].1 + x)] + c[1..]
    else
      var rest := Add(c[1..], k, x);
      KeysTail(c); KeysTail([c[0]] + rest);
      assert ([c[0]] + rest)[1..] == rest;
      [c[0]] + rest
  }

  /** Adding x to an entry adds x to the sum, and adding a non-negative
      amount keeps every entry non-negative. */
  lemma {:induction false} AddSum<K(!new)>(c: Counter<K>, k: K, x: real)
    ensures Sum(Add(c, k, x)) == Sum(c) + x
    ensures NonNegative(c) && x >= 0.0 ==> NonNegative(Add(c, k, x))
  {
    if |c| > 0 && c[0].0 != k {
      AddSum(c[1..], k, x);
    }
  }

  /** c[k] = x, appending the key when it is missing. */
  function Put<K(==,!new)>(c: Counter<K>, k: K, x: real): (r: Counter<K>)
    ensures forall k' :: Get(r, k') == if k' == k then x else Get(c, k')
    ensures Keys(r) == if k in Keys(c) then Keys(c) else Keys(c) + [k]
    ensures Distinct(Keys(c)) ==> Distinct(Keys(r))
  {
    if |c| == 0 then [(k, x)]
    else if c[0].0 == k then
      KeysTail(c); KeysTail([(k, x)] + c[1..]);
      assert ([(k, x)] + c[1..])[1..] == c[1..];
      [(k, x)] + c[1..]
    else
      var rest := Put(c[1..], k, x);
      KeysTail(c); KeysTail([c[0]] + rest);
      assert ([c[0]] + rest)[1..] == rest;
      [c[0]] + rest
  }

  /** c with every value divided by d. */
  function Divide<K>(c: Counter<K>, d: real): (r: Counter<K>)
    requires d != 0.0
    ensures |r| == |c|
    ensures forall i :: 0 <= i < |r| ==> r[i] == (c[i].0, c[i].1 / d)
  {
    seq(|c|, i requires 0 <= i < |c| => (c[i].0, c[i].1 / d))
  }

  /** Dividing every value divides every lookup and the sum, and keeps the keys. */
  lemma DivideSpec<K(!new)>(c: Counter<K>, d: real)
    requires d != 0.0
    ensures Keys(Divide(c, d)) == Keys(c)
    ensures forall k :: Get(Divide(c, d), k) == Get(c, k) / d
    ensures Sum(Divide(c, d)) == Sum(c) / d
  {
    assert Keys(Divide(c, d)) == Keys(c);
    forall k
      ensures Get(Divide(c, d), k) == Get(c, k) / d
    {
      DivideGet(c, d, k);
    }
    DivideTotal(c, d);
  }

  lemma {:induction false} DivideGet<K>(c: Counter<K>, d: real, k: K)
    requires d != 0.0
    ensures Get(Divide(c, d), k) == Get(c, k) / d
  {
    if |c| > 0 {
      var r := Divide(c, d);
      assert r[1..] == Divide(c[1..], d);
      DivideGet(c[1..], d, k);
    }
  }

  lemma {:induction false} DivideTotal<K>(c: Counter<K>, d: real)
    requires d != 0.0
    ensures Sum(Divide(c, d)) == Sum(c) / d
  {
    if |c| > 0 {
      var r := Divide(c, d);
      assert r[1..] == Divide(c[1..], d);
      DivideTotal(c[1..], d);
      DivideAdds(c[0].1, Sum(c[1..]), d);
    }
  }

  lemma DivideAdds(a: real, b: real, d: real)
    requires d != 0.0
    ensures (a + b) / d == a / d + b / d
  {
  }

  /** normalize(): every value divided by the sum of the values; a counter
      whose values sum to zero (in particular the empty one) is left as it is. */
  function Normalize<K(==,!new)>(c: Counter<K>): (r: Counter<K>)
    ensures Keys(r) == Keys(c)
    ensures Sum(c) == 0.0 ==> r == c
    ensures Sum(c) != 0.0 ==> Sum(r) == 1.0
    ensures Sum(c) != 0.0 ==> forall k :: Get(r, k) == Get(c, k) / Sum(c)
    ensures NonNegative(c) ==> forall i :: 0 <= i < |r| ==> 0.0 <= r[i].1 <= 1.0
  {
    var total := Sum(c);
    if total == 0.0 then
      NormalizeBounds(c, c);
      c
    else
      var r := Divide(c, total);
      DivideSpec(c, total);
      DivideSelf(total);
      NormalizeBounds(c, r);
      r
  }

  lemma NormalizeBounds<K>(c: Counter<K>, r: Counter<K>)
    requires |r| == |c|
    requires Sum(c) == 0.0 ==> r == c
    requires Sum(c) != 0.0 ==> forall i :: 0 <= i < |r| ==> r[i].1 == c[i].1 / Sum(c)
    ensures NonNegative(c) ==> forall i :: 0 <= i < |r| ==> 0.0 <= r[i].1 <= 1.0
  {
    if NonNegative(c) {
      forall i | 0 <= i < |r|
        ensures 0.0 <= r[i].1 <= 1.0
      {
        EntryAtMostSum(c, i);
        if Sum(c) != 0.0 {
          DivideAtMostOne(c[i].1, Sum(c));
        }
      }
    }
  }

  lemma DivideSelf(d: real)
    requires d != 0.0
    ensures d / d == 1.0
  {
  }

  lemma DivideAtMostOne(a: real, s: real)
    requires 0.0 <= a <= s && s != 0.0
    ensures 0.0 <= a / s <= 1.0
  {
  }

  /** The largest value of a non-empty counter (Python's max over its values). */
  function MaxValue<K>(c: Counter<K>): (m: real)
    requires |c| > 0
    ensures forall i :: 0 <= i < |c| ==> c[i].1 <= m
    ensures exists i :: 0 <= i < |c| && c[i].1 == m
  {
    if |c| == 1 then c[0].1
    else
      var rest := MaxValue(c[1..]);
      if c[0].1 >= rest then c[0].1 else rest
  }

  /** arg_max(): the position of the first entry, in iteration order, that
      holds the largest value. */
  function ArgMaxIndex<K>(c: Counter<K>): (i: nat)
    requires |c| > 0
    ensures i < |c|
    ensures forall j :: 0 <= j < |c| ==> c[j].1 <= c[i].1
    ensures forall j :: 0 <= j < i ==> c[j].1 < c[i].1
  {
    if |c| == 1 then 0
    else
      var j := ArgMaxIndex(c[1..]) + 1;
      if c[0].1 >= c[j].1 then 0 else j
  }

  /** cm[k]: the first row with key k, the empty counter when there is none. */
  function Row<K(==), V>(cm: CounterMap<K, V>, k: K): (row: Counter<V>)
    ensures k !in Keys(cm) ==> row == []
  {
    if |cm| == 0 then []
    else KeysTail(cm); if cm[0].0 == k then cm[0].1 else Row(cm[1..], k)
  }

  /** The sum of every value in every row. */
  function Total<K, V>(cm: CounterMap<K, V>): real
  {
    if |cm| == 0 then 0.0 else Sum(cm[0].1) + Total(cm[1..])
  }

  /** cm with row k replaced by `row` (or appended when k has no row):
      how an update through cm[k][...] lands in the table. */
  function WithRow<K(==,!new), V>(cm: CounterMap<K, V>, k: K, row: Counter<V>): (r: CounterMap<K, V>)
    ensures forall k' :: Row(r, k') == if k' == k then row else Row(cm, k')
    ensures Keys(r) == if k in Keys(cm) then Keys(cm) else Keys(cm) + [k]
    ensures Distinct(Keys(cm)) ==> Distinct(Keys(r))
  {
    if |cm| == 0 then [(k, row)]
    else if cm[0].0 == k then
      KeysTail(cm); KeysTail([(k, row)] + cm[1..]);
      assert ([(k, row)] + cm[1..])[1..] == cm[1..];
      [(k, row)] + cm[1..]
    else
      var rest := WithRow(cm[1..], k, row);
      KeysTail(cm); KeysTail([cm[0]] + rest);
      assert ([cm[0]] + rest)[1..] == rest;
      [cm[0]] + rest
  }

  /** Replacing a row changes the table's total by the change in that row's sum. */
  lemma {:induction false} WithRowTotal<K(!new), V>(cm: CounterMap<K, V>, k: K, row: Counter<V>)
    ensures Total(WithRow(cm, k, row)) == Total(cm) - Sum(Row(cm, k)) + Sum(row)
  {
    if |cm| > 0 && cm[0].0 != k {
      WithRowTotal(cm[1..], k, row);
    }
  }

  /** normalize() on a table: every row normalised, no row added or removed. */
  function NormalizeRows<K(==,!new), V(==,!new)>(cm: CounterMap<K, V>): (r: CounterMap<K, V>)
    ensures Keys(r) == Keys(cm)
    ensures forall k :: Row(r, k) == Normalize(Row(cm, k))
  {
    if |cm| == 0 then []
    else
      var rest := NormalizeRows(cm[1..]);
      var r := [(cm[0].0, Normalize(cm[0].1))] + rest;
      assert r[1..] == rest;
      KeysTail(cm); KeysTail(r);
      r
  }
}

=== FILE: decoder.dfy ===
/** HiddenMarkovModel.label (nlp/hmm.py, lines 73-105) on a trained model,
    and the transition-selection step of sampling (lines 107-114).

    The lattice reads reverse_transition[l][p] as the probability of
    stepping from p into l, and weighs every step by 1.0: the emission
    likelihoods are computed at line 86 but never enter a score. Computing
    them can still fail. Every density closure built at lines 60-62 looks
    `label` up when it is called, so all of them use the standard deviation
    of the last label of `labels`, and a zero deviation divides by zero as
    soon as one observation is decoded. */
module Decoder {
  import opened Outcomes
  import opened Counters
  import opened Training
  import opened Viterbi

  datatype DecodeError =
    | NotTrained          // no label was seen twice, yet a label must be returned
    | DegenerateEmission  // the density the closures share has zero deviation

  /** reverse_transition[l][p], a missing row or entry reading as 0. */
  function Trans<L(==)>(m: Model<L>): (L, L) -> real
  {
    (l: L, p: L) => Get(Row(m.reverse, l), After(p))
  }

  /** The weight the source gives every step: none. */
  function Flat<L>(t: nat, l: L): real
  {
    1.0
  }

  /** Lines 60-62 and 86: the closures share the last label's deviation, so
      evaluating them fails when its variance is zero. */
  predicate Degenerate<L(==)>(m: Model<L>)
  {
    |m.labels| > 0 && Get(m.variance, m.labels[|m.labels| - 1]) == 0.0
  }

  /** label(emission_sequence), as written: the labels of rows 2 to n of the
      backtracked lattice path, one fewer than there are observations. */
  function Label<L(==,!new)>(m: Model<L>, e: seq<real>): (r: Result<seq<L>, DecodeError>)
    ensures r.Success? ==> |r.value| == if |e| == 0 then 0 else |e| - 1
    ensures r.Success? ==> forall k :: 0 <= k < |r.value| ==> r.value[k] in m.labels
    ensures r == Failure(NotTrained) <==> |m.labels| == 0 && |e| >= 2
    ensures r == Failure(DegenerateEmission) <==> |e| >= 1 && Degenerate(m)
  {
    if |m.labels| == 0 then
      if |e| <= 1 then Success([]) else Failure(NotTrained)
    else if |e| >= 1 && Degenerate(m) then Failure(DegenerateEmission)
    else Success(Decode(m.labels, Trans(m), Flat, |e|))
  }

  /** The corrected label: the backtracking loop also visits position 0, so
      every observation gets a label. */
  function LabelAligned<L(==,!new)>(m: Model<L>, e: seq<real>): (r: Result<seq<L>, DecodeError>)
    ensures r.Success? ==> |r.value| == |e|
    ensures r.Success? ==> forall k :: 0 <= k < |r.value| ==> r.value[k] in m.labels
    ensures r == Failure(NotTrained) <==> |m.labels| == 0 && |e| >= 1
    ensures r == Failure(DegenerateEmission) <==> |e| >= 1 && Degenerate(m)
  {
    if |m.labels| == 0 then
      if |e| == 0 then Success([]) else Failure(NotTrained)
    else if |e| >= 1 && Degenerate(m) then Failure(DegenerateEmission)
    else Success(DecodeAll(m.labels, Trans(m), Flat, |e|))
  }

  /** The decoder's weights and transition probabilities are never negative
      on a trained model. */
  lemma TrainedWeights<L(!new)>(m: Model<L>)
    requires Trained(m)
    ensures forall t: nat, l :: l in m.labels ==> Flat(t, l) >= 0.0
    ensures forall l, p :: l in m.labels && p in m.labels ==> Trans(m)(l, p) >= 0.0
  {
  }

  /** The optimality the tagger asserts (nlp/pos_hmm.py, line 75): the labels
      returned are the tail of a lattice path, one label per row from the
      prior to the last observation, that scores at least as much as every
      other such path. */
  lemma LabelOptimal<L(!new)>(m: Model<L>, e: seq<real>, x: seq<L>)
    requires Trained(m) && Label(m, e).Success? && |m.labels| > 0 && |e| >= 1
    requires |x| == |e| + 1 && forall i :: 0 <= i < |x| ==> x[i] in m.labels
    ensures Label(m, e).value == BestPath(m.labels, Trans(m), Flat, |e|)[2..]
    ensures PathScore(m.labels, Trans(m), Flat, x) <= PathScore(m.labels, Trans(m), Flat, BestPath(m.labels, Trans(m), Flat, |e|))
  {
    TrainedWeights(m);
    DecodeIsBestPathSuffix(m.labels, Trans(m), Flat, |e|);
    BestPathOptimal(m.labels, Trans(m), Flat, |e|, x);
  }

  /** The corrected labels are the optimal path without its prior row. */
  lemma LabelAlignedOptimal<L(!new)>(m: Model<L>, e: seq<real>, x: seq<L>)
    requires Trained(m) && LabelAligned(m, e).Success? && |m.labels| > 0
    requires |x| == |e| + 1 && forall i :: 0 <= i < |x| ==> x[i] in m.labels
    ensures LabelAligned(m, e).value == BestPath(m.labels, Trans(m), Flat, |e|)[1..]
    ensures PathScore(m.labels, Trans(m), Flat, x) <= PathScore(m.labels, Trans(m), Flat, BestPath(m.labels, Trans(m), Flat, |e|))
  {
    TrainedWeights(m);
    DecodeIsBestPathSuffix(m.labels, Trans(m), Flat, |e|);
    BestPathOptimal(m.labels, Trans(m), Flat, |e|, x);
  }

  /** The observation the source leaves unlabelled: a single observation
      decodes to no label at all, where one label was evidently intended. */
  lemma LabelDropsFirst<L(!new)>(m: Model<L>, y: real)
    requires |m.labels| > 0 && !Degenerate(m)
    ensures Label(m, [y]) == Success([])
    ensures |LabelAligned(m, [y]).value| == 1
  {
  }

  // Transition selection by inverse CDF.

  /** The running sum of the first i + 1 probabilities of a row reaches u. */
  predicate Reaches<K>(row: Counter<K>, i: nat, u: real)
    requires i < |row|
  {
    Sum(row[..i + 1]) >= u
  }

  /** Lines 110-114: subtract the probabilities from u in row order and stop
      at the first destination where u drops to 0 or below; None is the
      failed assertion after an exhausted row. */
  function SelectIndex<K>(row: Counter<K>, u: real): (r: Option<nat>)
    ensures r.Some? ==> r.value < |row| && Reaches(row, r.value, u)
    ensures r.Some? ==> forall j :: 0 <= j < r.value ==> !Reaches(row, j, u)
    ensures r.None? <==> forall j :: 0 <= j < |row| ==> !Reaches(row, j, u)
  {
    if |row| == 0 then None
    else
      var rest := u - row[0].1;
      ReachesTail(row, u);
      if rest <= 0.0 then Some(0)
      else
        match SelectIndex(row[1..], rest)
        case None => None
        case Some(j) => Some(j + 1)
  }

  /** Position j > 0 of a row reaches u exactly when position j - 1 of its
      tail reaches what is left of u after the first probability. */
  lemma ReachesTail<K>(row: Counter<K>, u: real)
    requires |row| > 0
    ensures Reaches(row, 0, u) <==> u - row[0].1 <= 0.0
    ensures forall j :: 0 < j < |row| ==> (Reaches(row, j, u) <==> Reaches(row[1..], j - 1, u - row[0].1))
  {
    assert row[..1][1..] == [];
    assert Sum(row[..1]) == row[0].1;
    forall j | 0 < j < |row|
      ensures Reaches(row, j, u) <==> Reaches(row[1..], j - 1, u - row[0].1)
    {
      var i := j - 1;
      var head := row[..j + 1];
      assert head[1..] == row[1..][..i + 1];
      assert Sum(head) == row[0].1 + Sum(head[1..]);
      assert Reaches(row[1..], i, u - row[0].1) <==> Sum(row[1..][..i + 1]) >= u - row[0].1;
    }
  }

  /** __sample_transition(label) with the uniform draw u: the destination
      chosen from the transition row of `source`. The source's draw,
      `random.sample()` with no arguments (line 108), raises instead; u is
      the draw from [0, 1) evidently intended. */
  function SampleTransition<L(==)>(m: Model<L>, source: Source<L>, u: real): (r: Option<L>)
    ensures r.Some? ==> r.value in Keys(Row(m.transition, source))
  {
    var row := Row(m.transition, source);
    match SelectIndex(row, u)
    case None => None
    case Some(i) => assert Keys(row)[i] == row[i].0; Some(row[i].0)
  }

  /** The prefix sums of a row without negative entries never exceed its sum. */
  lemma {:induction false} PrefixAtMostSum<K>(row: Counter<K>, i: nat)
    requires NonNegative(row) && i <= |row|
    ensures Sum(row[..i]) <= Sum(row)
    decreases |row|
  {
    if i > 0 {
      assert row[..i][1..] == row[1..][..i - 1];
      PrefixAtMostSum(row[1..], i - 1);
    } else {
      SumNonNegative(row);
    }
  }

  /** On a non-empty row without negative entries, selection succeeds
      exactly when the draw does not exceed the row's sum. */
  lemma SelectSucceeds<K>(row: Counter<K>, u: real)
    requires |row| > 0 && NonNegative(row)
    ensures SelectIndex(row, u).Some? <==> u <= Sum(row)
  {
    var n := |row| - 1;
    assert row[..n + 1] == row;
    if u <= Sum(row) {
      assert Reaches(row, n, u);
    } else {
      forall j | 0 <= j < |row|
        ensures !Reaches(row, j, u)
      {
        PrefixAtMostSum(row, j + 1);
      }
    }
  }

  /** A trained model always finds a next state from a source that has a
      row, for every draw between 0 and 1. */
  lemma SampleTrained<L(!new)>(s: seq<(L, real)>, source: Source<L>, u: real)
    requires OutCount(s, source) > 0 && u <= 1.0
    ensures SampleTransition(Train(s), source, u).Some?
  {
    TrainTransitions(s);
    var row := Row(Train(s).transition, source);
    assert NonNegative(row);
    assert |row| > 0;
    SelectSucceeds(row, u);
  }
}

=== FILE: outcomes.dfy ===
/** Optional values and results with an error, used for the engine's
    failure paths instead of Python exceptions and `assert False`. */
module Outcomes {

  datatype Option<+T> = None | Some(value: T)

  datatype Result<+T, +E> = Success(value: T) | Failure(error: E)
}

=== FILE: pos_stream.dfy ===
/** The sentence stitching of the part-of-speech tagger (nlp/pos_hmm.py):
    merge_stream (lines 8-23), which frames every sentence and its tags
    with START and STOP markers and zips the two streams, and the
    per-sentence count of correct guesses (lines 63-66). */
module PosStream {

  /** A stream element: one of the two boundary markers, or a tag or word.
      The markers are distinct from every tag and word. */
  datatype Token<T> = StartLabel | StopLabel | Tok(value: T)

  predicate IsBoundary<T>(x: Token<T>)
  {
    x == StartLabel || x == StopLabel
  }

  function Min(a: nat, b: nat): nat
  {
    if a <= b then a else b
  }

  /** One sentence (or its tags) between its markers, lines 14-21. */
  function Framed<T>(xs: seq<T>): (f: seq<Token<T>>)
    ensures |f| == |xs| + 2
    ensures f[0] == StartLabel && f[|f| - 1] == StopLabel
    ensures forall i :: 0 <= i < |xs| ==> f[i + 1] == Tok(xs[i])
  {
    [StartLabel] + seq(|xs|, i requires 0 <= i < |xs| => Tok(xs[i])) + [StopLabel]
  }

  /** Every part framed, the frames concatenated in input order. */
  function Stream<T>(parts: seq<seq<T>>): seq<Token<T>>
  {
    if |parts| == 0 then []
    else Stream(parts[..|parts| - 1]) + Framed(parts[|parts| - 1])
  }

  /** The number of tokens the framed parts take: two markers per part. */
  function Width<T>(parts: seq<seq<T>>): nat
  {
    if |parts| == 0 then 0 else Width(parts[1..]) + |parts[0]| + 2
  }

  function Tags<T, W>(stream: seq<(seq<T>, seq<W>)>): (r: seq<seq<T>>)
    ensures |r| == |stream| && forall k :: 0 <= k < |r| ==> r[k] == stream[k].0
  {
    seq(|stream|, k requires 0 <= k < |stream| => stream[k].0)
  }

  function Words<T, W>(stream: seq<(seq<T>, seq<W>)>): (r: seq<seq<W>>)
    ensures |r| == |stream| && forall k :: 0 <= k < |r| ==> r[k] == stream[k].1
  {
    seq(|stream|, k requires 0 <= k < |stream| => stream[k].1)
  }

  /** zip(a, b): pairs position by position, as long as the shorter input. */
  function Zip<A, B>(a: seq<A>, b: seq<B>): (z: seq<(A, B)>)
    ensures |z| == Min(|a|, |b|)
    ensures forall i :: 0 <= i < |z| ==> z[i] == (a[i], b[i])
  {
    seq(Min(|a|, |b|), i requires 0 <= i < Min(|a|, |b|) => (a[i], b[i]))
  }

  /** merge_stream(stream), lines 8-23: the tag stream zipped with the word
      stream. */
  function MergeStream<T, W>(stream: seq<(seq<T>, seq<W>)>): (r: seq<(Token<T>, Token<W>)>)
    ensures |r| == Min(Width(Tags(stream)), Width(Words(stream)))
    ensures |stream| == 0 ==> r == []
  {
    StreamWidth(Tags(stream));
    StreamWidth(Words(stream));
    Zip(Stream(Tags(stream)), Stream(Words(stream)))
  }

  // The shape of a stream.

  lemma {:induction false} WidthAppend<T>(parts: seq<seq<T>>, x: seq<T>)
    ensures Width(parts + [x]) == Width(parts) + |x| + 2
  {
    if |parts| > 0 {
      assert (parts + [x])[1..] == parts[1..] + [x];
      WidthAppend(parts[1..], x);
    }
  }

  /** A stream has |part| + 2 tokens per part. */
  lemma {:induction false} StreamWidth<T>(parts: seq<seq<T>>)
    ensures |Stream(parts)| == Width(parts)
  {
    if |parts| > 0 {
      var init := parts[..|parts| - 1];
      StreamWidth(init);
      assert parts == init + [parts[|parts| - 1]];
      WidthAppend(init, parts[|parts| - 1]);
    }
  }

  /** Streams concatenate as their parts do. */
  lemma {:induction false} StreamConcat<T>(a: seq<seq<T>>, b: seq<seq<T>>)
    ensures Stream(a + b) == Stream(a) + Stream(b)
  {
    if |b| > 0 {
      var init := b[..|b| - 1];
      assert (a + b)[..|a + b| - 1] == a + init;
      assert (a + b)[|a + b| - 1] == b[|b| - 1];
      StreamConcat(a, init);
    } else {
      assert a + b == a;
    }
  }

  /** Sentences appear in input order (lines 13-21): part k occupies the
      tokens of the stream from the width of the parts before it on, framed
      by its markers. */
  lemma StreamPart<T>(parts: seq<seq<T>>, k: nat)
    requires k < |parts|
    ensures |Stream(parts[..k])| + |parts[k]| + 2 <= |Stream(parts)|
    ensures Stream(parts)[|Stream(parts[..k])|..|Stream(parts[..k])| + |parts[k]| + 2] == Framed(parts[k])
  {
    var before := parts[..k];
    var after := parts[k + 1..];
    assert parts[..k + 1] == before + [parts[k]];
    assert parts == before + [parts[k]] + after;
    StreamConcat(before + [parts[k]], after);
    StreamConcat(before, [parts[k]]);
    assert Stream([parts[k]]) == Framed(parts[k]) by {
      assert [parts[k]][..0] == [];
    }
  }

  // The merged stream.

  /** Every sentence has as many tags as words. */
  predicate Aligned<T, W>(stream: seq<(seq<T>, seq<W>)>)
  {
    forall k :: 0 <= k < |stream| ==> |stream[k].0| == |stream[k].1|
  }

  /** Aligned streams have equal widths. */
  lemma {:induction false} AlignedWidths<T, W>(stream: seq<(seq<T>, seq<W>)>)
    requires Aligned(stream)
    ensures Width(Tags(stream)) == Width(Words(stream))
  {
    if |stream| > 0 {
      assert Tags(stream)[1..] == Tags(stream[1..]);
      assert Words(stream)[1..] == Words(stream[1..]);
      AlignedWidths(stream[1..]);
    }
  }

  /** When every sentence has as many tags as words nothing is cut off: the
      merged stream has |sentence| + 2 pairs per sentence. */
  lemma MergeLength<T, W>(stream: seq<(seq<T>, seq<W>)>)
    requires Aligned(stream)
    ensures |MergeStream(stream)| == Width(Tags(stream))
    ensures |MergeStream(stream)| == |Stream(Tags(stream))| == |Stream(Words(stream))|
  {
    AlignedWidths(stream);
    StreamWidth(Tags(stream));
    StreamWidth(Words(stream));
  }

  /** Adding a sentence with as many tags as words appends its framed tags
      zipped with its framed words. */
  lemma MergeAppend<T, W>(stream: seq<(seq<T>, seq<W>)>, s: (seq<T>, seq<W>))
    requires Aligned(stream) && |s.0| == |s.1|
    ensures MergeStream(stream + [s]) == MergeStream(stream) + Zip(Framed(s.0), Framed(s.1))
  {
    MergeConcat(stream, [s]);
    MergeSingle(s);
  }

  /** A stream of one sentence merges into its framed tags zipped with its
      framed words. */
  lemma MergeSingle<T, W>(s: (seq<T>, seq<W>))
    ensures MergeStream([s]) == Zip(Framed(s.0), Framed(s.1))
  {
    assert Tags([s]) == [s.0];
    assert Words([s]) == [s.1];
    assert Stream([s.0]) == Framed(s.0) by { assert [s.0][..0] == []; }
    assert Stream([s.1]) == Framed(s.1) by { assert [s.1][..0] == []; }
  }

  /** Merging concatenated streams concatenates the merged streams, as long
      as the first has as many tags as words in every sentence. */
  lemma MergeConcat<T, W>(a: seq<(seq<T>, seq<W>)>, b: seq<(seq<T>, seq<W>)>)
    requires Aligned(a)
    ensures MergeStream(a + b) == MergeStream(a) + MergeStream(b)
  {
    assert Tags(a + b) == Tags(a) + Tags(b);
    assert Words(a + b) == Words(a) + Words(b);
    StreamConcat(Tags(a), Tags(b));
    StreamConcat(Words(a), Words(b));
    MergeLength(a);
    ZipConcat(Stream(Tags(a)), Stream(Tags(b)), Stream(Words(a)), Stream(Words(b)));
  }

  lemma ZipConcat<A, B>(a1: seq<A>, a2: seq<A>, b1: seq<B>, b2: seq<B>)
    requires |a1| == |b1|
    ensures Zip(a1 + a2, b1 + b2) == Zip(a1, b1) + Zip(a2, b2)
  {
  }

  /** Sentence k of an aligned stream lands, framed and zipped, right after
      the pairs of the sentences before it. */
  lemma MergeSentence<T, W>(stream: seq<(seq<T>, seq<W>)>, k: nat)
    requires Aligned(stream) && k < |stream|
    ensures |MergeStream(stream[..k])| + |stream[k].0| + 2 <= |MergeStream(stream)|
    ensures MergeStream(stream)[|MergeStream(stream[..k])|..|MergeStream(stream[..k])| + |stream[k].0| + 2] ==
      Zip(Framed(stream[k].0), Framed(stream[k].1))
  {
    var pre := stream[..k];
    var s := stream[k];
    var post := stream[k + 1..];
    assert stream == (pre + [s]) + post;
    assert Aligned(pre + [s]);
    MergeConcat(pre + [s], post);
    MergeAppend(pre, s);
    var z := Zip(Framed(s.0), Framed(s.1));
    SliceMiddle(MergeStream(pre), z, MergeStream(post));
  }

  lemma SliceMiddle<X>(a: seq<X>, b: seq<X>, c: seq<X>)
    ensures (a + b + c)[|a|..|a| + |b|] == b
  {
  }

  /** The markers line up (line 23): in a merged stream of aligned
      sentences, START pairs with START, STOP with STOP, and a tag with a
      word. */
  lemma {:induction false} MarkersAligned<T, W>(stream: seq<(seq<T>, seq<W>)>)
    requires Aligned(stream)
    ensures forall i :: 0 <= i < |MergeStream(stream)| ==> Matched(MergeStream(stream)[i])
  {
    if |stream| > 0 {
      var init := stream[..|stream| - 1];
      var s := stream[|stream| - 1];
      assert stream == init + [s];
      MarkersAligned(init);
      MergeAppend(init, s);
      var z := Zip(Framed(s.0), Framed(s.1));
      forall i | 0 <= i < |z|
        ensures Matched(z[i])
      {
        if 0 < i < |z| - 1 {
          assert z[i] == (Tok(s.0[i - 1]), Tok(s.1[i - 1]));
        }
      }
      var r := MergeStream(init);
      forall i | 0 <= i < |r + z|
        ensures Matched((r + z)[i])
      {
        if i >= |r| {
          assert (r + z)[i] == z[i - |r|];
        }
      }
    }
  }

  /** A pair of the merged stream: both START, both STOP, or a tag and a word. */
  predicate Matched<T, W>(p: (Token<T>, Token<W>))
  {
    (p.0 == StartLabel <==> p.1 == StartLabel) && (p.0 == StopLabel <==> p.1 == StopLabel)
  }

  // Counting correct guesses.

  /** Position i is counted: its gold label is not a marker and the guess
      agrees with it (lines 65-66). */
  predicate Hit<T(==)>(correct: seq<Token<T>>, guessed: seq<Token<T>>, i: nat)
  {
    i < |correct| && i < |guessed| && !IsBoundary(correct[i]) && correct[i] == guessed[i]
  }

  /** The counted positions among the first n. */
  function HitsBelow<T(==)>(correct: seq<Token<T>>, guessed: seq<Token<T>>, n: nat): set<nat>
  {
    set i: nat | i < n && Hit(correct, guessed, i)
  }

  /** The counted positions. */
  function Hits<T(==)>(correct: seq<Token<T>>, guessed: seq<Token<T>>): set<nat>
  {
    HitsBelow(correct, guessed, Min(|correct|, |guessed|))
  }

  /** The positions of the first n where the gold label is not a marker. */
  function ItemCount<T>(xs: seq<Token<T>>, n: nat): (c: nat)
    requires n <= |xs|
  {
    if n == 0 then 0 else ItemCount(xs, n - 1) + if IsBoundary(xs[n - 1]) then 0 else 1
  }

  /** Position m joins the counted positions exactly when it is a hit. */
  lemma HitsStep<T>(correct: seq<Token<T>>, guessed: seq<Token<T>>, m: nat)
    ensures m !in HitsBelow(correct, guessed, m)
    ensures HitsBelow(correct, guessed, m + 1) ==
      HitsBelow(correct, guessed, m) + if Hit(correct, guessed, m) then {m} else {}
  {
  }

  /** Lines 63-66 over the first n zipped positions. */
  function CountPrefix<T(==)>(correct: seq<Token<T>>, guessed: seq<Token<T>>, n: nat): (c: nat)
    requires n <= Min(|correct|, |guessed|)
    ensures c == |HitsBelow(correct, guessed, n)|
    ensures c <= ItemCount(correct, n)
  {
    if n == 0 then
      assert HitsBelow(correct, guessed, n) == {};
      0
    else
      var m := n - 1;
      var c := CountPrefix(correct, guessed, m);
      HitsStep(correct, guessed, m);
      if Hit(correct, guessed, m) then c + 1 else c
  }

  /** num_correct for one sentence, lines 63-66: the positions, up to the
      shorter of the two label lists, where the guess matches a gold label
      that is not a marker. */
  function CorrectCount<T(==)>(correct: seq<Token<T>>, guessed: seq<Token<T>>): (c: nat)
    ensures c == |Hits(correct, guessed)|
    ensures c <= ItemCount(correct, Min(|correct|, |guessed|))
  {
    CountPrefix(correct, guessed, Min(|correct|, |guessed|))
  }

  /** A perfect guess is credited with every position but the markers. */
  lemma {:induction false} PerfectGuess<T>(xs: seq<Token<T>>, n: nat)
    requires n <= |xs|
    ensures CountPrefix(xs, xs, n) == ItemCount(xs, n)
  {
    if n > 0 {
      PerfectGuess(xs, n - 1);
    }
  }

  /** Guessing a framed sentence exactly scores one per word. */
  lemma FramedScore<T>(xs: seq<T>)
    ensures CorrectCount(Framed(xs), Framed(xs)) == |xs|
  {
    var f := Framed(xs);
    PerfectGuess(f, |f|);
    FramedItems(xs, |xs| + 1);
  }

  lemma {:induction false} FramedItems<T>(xs: seq<T>, n: nat)
    requires n <= |xs| + 1
    ensures ItemCount(Framed(xs), n) == if n == 0 then 0 else n - 1
  {
    if n > 0 {
      FramedItems(xs, n - 1);
    }
  }
}

=== FILE: training.dfy ===
/** Parameter estimation: HiddenMarkovModel.train (nlp/hmm.py, lines 23-57).
    One pass counts labels, accumulates emission sums and counts
    transitions; the transition table is then row-normalised and mirrored,
    the sums become means, and a second pass accumulates the unbiased
    sample variance of every label seen more than once. */
module Training {
  import opened Counters

  /** The source of a transition: the pseudo-label "start" for the first
      element of a training sequence, the previous label for every other. */
  datatype Source<L> = Start | After(prev: L)

  /** The trained tables. `variance` is the accumulator that the source
      turns into a standard deviation with a square root; `labels` are its
      keys, the labels the decoder ranges over. */
  datatype Model<L> = Model(
    transition: CounterMap<Source<L>, L>,
    reverse: CounterMap<L, Source<L>>,
    mean: Counter<L>,
    variance: Counter<L>,
    labels: seq<L>)

  /** The counters the first pass fills: label counts, emission sums and raw
      transition counts. */
  datatype Tallies<L> = Tallies(counts: Counter<L>, sums: Counter<L>, transitions: CounterMap<Source<L>, L>)

  /** The source of the transition recorded for element i. */
  function SourceAt<L>(s: seq<(L, real)>, i: nat): Source<L>
    requires i < |s|
  {
    if i == 0 then Start else After(s[i - 1].0)
  }

  // Reference definitions, element by element over a labelled sequence.

  /** The number of elements labelled l. */
  function Count<L(==)>(s: seq<(L, real)>, l: L): nat
  {
    if |s| == 0 then 0
    else Count(s[..|s| - 1], l) + if s[|s| - 1].0 == l then 1 else 0
  }

  /** The sum of the emissions of the elements labelled l. */
  function EmissionSum<L(==)>(s: seq<(L, real)>, l: L): real
  {
    if |s| == 0 then 0.0
    else EmissionSum(s[..|s| - 1], l) + if s[|s| - 1].0 == l then s[|s| - 1].1 else 0.0
  }

  /** The number of elements labelled b whose source is a. */
  function TransitionCount<L(==)>(s: seq<(L, real)>, a: Source<L>, b: L): nat
  {
    if |s| == 0 then 0
    else TransitionCount(s[..|s| - 1], a, b) + if SourceAt(s, |s| - 1) == a && s[|s| - 1].0 == b then 1 else 0
  }

  /** The number of elements whose source is a. */
  function OutCount<L(==)>(s: seq<(L, real)>, a: Source<L>): nat
  {
    if |s| == 0 then 0
    else OutCount(s[..|s| - 1], a) + if SourceAt(s, |s| - 1) == a then 1 else 0
  }

  /** The sum of (e - m)^2 over the emissions e of the elements labelled l. */
  function SquaredDeviations<L(==)>(s: seq<(L, real)>, l: L, m: real): real
  {
    if |s| == 0 then 0.0
    else
      SquaredDeviations(s[..|s| - 1], l, m) + if s[|s| - 1].0 == l then Square(s[|s| - 1].1 - m) else 0.0
  }

  function Square(x: real): real
  {
    x * x
  }

  // The passes of train, as the source performs them.

  /** Lines 29-36: for every (label, emission), count the label, add the
      emission to the label's sum and count one transition from the source
      of the element to its label. */
  function FirstPass<L(==,!new)>(s: seq<(L, real)>): Tallies<L>
  {
    if |s| == 0 then Tallies([], [], [])
    else
      var t := FirstPass(s[..|s| - 1]);
      var (lab, emission) := s[|s| - 1];
      var src := SourceAt(s, |s| - 1);
      Tallies(
        Add(t.counts, lab, 1.0),
        Add(t.sums, lab, emission),
        Record(t.transitions, src, lab))
  }

  /** transition[src][lab] += 1.0, lines 33 and 35. */
  function Record<S(==,!new), L(==,!new)>(t: CounterMap<S, L>, src: S, lab: L): CounterMap<S, L>
  {
    WithRow(t, src, Add(Row(t, src), lab, 1.0))
  }

  /** Lines 46-47: every accumulated emission sum divided by its label's count. */
  function Means<L(==,!new)>(sums: Counter<L>, counts: Counter<L>): (r: Counter<L>)
    requires forall l :: l in Keys(sums) ==> Get(counts, l) != 0.0
    ensures Keys(r) == Keys(sums)
    ensures forall l :: l in Keys(sums) ==> Get(r, l) == Get(sums, l) / Get(counts, l)
  {
    if |sums| == 0 then []
    else
      KeysTail(sums);
      var rest := Means(sums[1..], counts);
      var r := [(sums[0].0, sums[0].1 / Get(counts, sums[0].0))] + rest;
      assert r[1..] == rest;
      KeysTail(r);
      r
  }

  /** Lines 49-52: for every element whose label was counted more than once,
      add the element's term to the label's accumulator. */
  function SecondPass<L(==,!new)>(s: seq<(L, real)>, counts: Counter<L>, mean: Counter<L>): Counter<L>
  {
    Accumulate(s, counts, VarianceTerms(counts, mean))
  }

  /** The loop of lines 49-52 with the term it adds left open: for every
      element whose label was counted more than once, add term(label,
      emission) to the label's entry. */
  function Accumulate<L(==,!new)>(s: seq<(L, real)>, counts: Counter<L>, term: (L, real) -> real): Counter<L>
  {
    if |s| == 0 then []
    else
      var acc := Accumulate(s[..|s| - 1], counts, term);
      var (lab, emission) := s[|s| - 1];
      if Get(counts, lab) > 1.0 then Add(acc, lab, term(lab, emission)) else acc
  }

  /** The term line 52 adds for an element of a label counted more than once. */
  function VarianceTerms<L(==)>(counts: Counter<L>, mean: Counter<L>): (L, real) -> real
  {
    (l: L, e: real) => if Get(counts, l) > 1.0 then VarianceTerm(e, Get(mean, l), Get(counts, l)) else 0.0
  }

  /** One element's share of the unbiased sample variance, line 52. */
  function VarianceTerm(e: real, m: real, n: real): real
    requires n > 1.0
  {
    Square(e - m) / (n - 1.0)
  }

  /** Lines 41-43, inner loop: reverse[b][a] = p for every entry (b, p) of row a. */
  function MirrorRow<A(==,!new), B(==,!new)>(acc: CounterMap<B, A>, a: A, row: Counter<B>): CounterMap<B, A>
    decreases |row|
  {
    if |row| == 0 then acc
    else MirrorRow(WithRow(acc, row[0].0, Put(Row(acc, row[0].0), a, row[0].1)), a, row[1..])
  }

  /** Lines 41-43, outer loop over the rows of the table, in table order. */
  function MirrorFrom<A(==,!new), B(==,!new)>(acc: CounterMap<B, A>, t: CounterMap<A, B>): CounterMap<B, A>
    decreases |t|
  {
    if |t| == 0 then acc
    else MirrorFrom(MirrorRow(acc, t[0].0, t[0].1), t[1..])
  }

  function Mirror<A(==,!new), B(==,!new)>(t: CounterMap<A, B>): CounterMap<B, A>
  {
    MirrorFrom([], t)
  }

  /** train(labeled_sequence), lines 23-57, with the variance kept in place
      of its square root. */
  function Train<L(==,!new)>(s: seq<(L, real)>): Model<L>
  {
    var t := FirstPass(s);
    LabelTallies(s);
    var transition := NormalizeRows(t.transitions);
    var mean := Means(t.sums, t.counts);
    var variance := SecondPass(s, t.counts, mean);
    Model(transition, Mirror(transition), mean, variance, Keys(variance))
  }

  // What the passes compute.

  /** The first pass counts every label and sums its emissions. */
  lemma {:induction false} LabelTallies<L(!new)>(s: seq<(L, real)>)
    ensures forall l :: Get(FirstPass(s).counts, l) == Count(s, l) as real
    ensures forall l :: Get(FirstPass(s).sums, l) == EmissionSum(s, l)
    ensures forall l :: l in Keys(FirstPass(s).counts) <==> Count(s, l) > 0
    ensures Keys(FirstPass(s).sums) == Keys(FirstPass(s).counts)
    ensures Distinct(Keys(FirstPass(s).counts))
  {
    if |s| > 0 {
      LabelTallies(s[..|s| - 1]);
    }
  }

  /** The first pass records exactly one transition per element: from
      "start" into the first label, and from each label into the next. */
  lemma {:induction false} TransitionTallies<L(!new)>(s: seq<(L, real)>)
    ensures forall a, b :: Get(Row(FirstPass(s).transitions, a), b) == TransitionCount(s, a, b) as real
    ensures Total(FirstPass(s).transitions) == |s| as real
  {
    if |s| > 0 {
      var p := s[..|s| - 1];
      TransitionTallies(p);
      var t := FirstPass(p).transitions;
      var src := SourceAt(s, |s| - 1);
      var lab := s[|s| - 1].0;
      var r := FirstPass(s).transitions;
      assert r == Record(t, src, lab);
      forall a, b
        ensures Get(Row(r, a), b) == TransitionCount(s, a, b) as real
      {
        assert TransitionCount(s, a, b) == TransitionCount(p, a, b) + if src == a && lab == b then 1 else 0;
        RecordGet(t, src, lab, a, b);
      }
      RecordTotal(t, src, lab);
    }
  }

  /** Recording a transition adds one to its entry and to no other. */
  lemma RecordGet<S(!new), L(!new)>(t: CounterMap<S, L>, src: S, lab: L, a: S, b: L)
    ensures Get(Row(Record(t, src, lab), a), b) == Get(Row(t, a), b) + if a == src && b == lab then 1.0 else 0.0
  {
    if a != src {
      assert Row(Record(t, src, lab), a) == Row(t, a);
    }
  }

  /** Recording a transition adds one to its source's row sum and to no
      other, and gives the source a row. */
  lemma RecordRow<S(!new), L(!new)>(t: CounterMap<S, L>, src: S, lab: L, a: S)
    ensures Sum(Row(Record(t, src, lab), a)) == Sum(Row(t, a)) + if a == src then 1.0 else 0.0
    ensures a in Keys(Record(t, src, lab)) <==> a == src || a in Keys(t)
    ensures NonNegative(Row(t, a)) ==> NonNegative(Row(Record(t, src, lab), a))
    ensures Distinct(Keys(Row(t, a))) ==> Distinct(Keys(Row(Record(t, src, lab), a)))
  {
    if a != src {
      assert Row(Record(t, src, lab), a) == Row(t, a);
    } else {
      AddSum(Row(t, src), lab, 1.0);
    }
  }

  /** Recording a transition adds one to the table's total and keeps its
      sources distinct. */
  lemma RecordTotal<S(!new), L(!new)>(t: CounterMap<S, L>, src: S, lab: L)
    ensures Total(Record(t, src, lab)) == Total(t) + 1.0
    ensures Distinct(Keys(t)) ==> Distinct(Keys(Record(t, src, lab)))
  {
    WithRowTotal(t, src, Add(Row(t, src), lab, 1.0));
    AddSum(Row(t, src), lab, 1.0);
  }

  /** Every row of raw counts sums to the number of transitions out of its
      source, and a source has a row exactly when it occurs. */
  lemma {:induction false} TransitionRows<L(!new)>(s: seq<(L, real)>)
    ensures forall a :: Sum(Row(FirstPass(s).transitions, a)) == OutCount(s, a) as real
    ensures forall a :: a in Keys(FirstPass(s).transitions) <==> OutCount(s, a) > 0
    ensures Distinct(Keys(FirstPass(s).transitions))
  {
    if |s| > 0 {
      var p := s[..|s| - 1];
      TransitionRows(p);
      var t := FirstPass(p).transitions;
      var src := SourceAt(s, |s| - 1);
      var lab := s[|s| - 1].0;
      var r := FirstPass(s).transitions;
      assert r == Record(t, src, lab);
      forall a
        ensures Sum(Row(r, a)) == OutCount(s, a) as real
        ensures a in Keys(r) <==> OutCount(s, a) > 0
      {
        assert OutCount(s, a) == OutCount(p, a) + if src == a then 1 else 0;
        RecordRow(t, src, lab, a);
      }
      RecordTotal(t, src, lab);
    }
  }

  /** Raw count rows have distinct keys and no negative entry. */
  lemma {:induction false} TransitionRowsValid<L(!new)>(s: seq<(L, real)>)
    ensures forall a :: NonNegative(Row(FirstPass(s).transitions, a))
    ensures forall a :: Distinct(Keys(Row(FirstPass(s).transitions, a)))
  {
    if |s| > 0 {
      var p := s[..|s| - 1];
      TransitionRowsValid(p);
      var t := FirstPass(p).transitions;
      var src := SourceAt(s, |s| - 1);
      var lab := s[|s| - 1].0;
      var r := FirstPass(s).transitions;
      assert r == Record(t, src, lab);
      forall a
        ensures NonNegative(Row(r, a)) && Distinct(Keys(Row(r, a)))
      {
        RecordRow(t, src, lab, a);
      }
    }
  }

  /** The terms the elements labelled l contribute, in sequence order. */
  function TermSum<L(==)>(s: seq<(L, real)>, l: L, term: (L, real) -> real): real
  {
    if |s| == 0 then 0.0
    else TermSum(s[..|s| - 1], l, term) + if s[|s| - 1].0 == l then term(l, s[|s| - 1].1) else 0.0
  }

  /** The accumulator of a label counted more than once holds the terms of
      its elements; every other label's reads as zero. */
  lemma {:induction false} AccumulateAt<L(!new)>(s: seq<(L, real)>, counts: Counter<L>, term: (L, real) -> real, l: L)
    ensures Get(Accumulate(s, counts, term), l) == if Get(counts, l) > 1.0 then TermSum(s, l, term) else 0.0
  {
    if |s| > 0 {
      AccumulateAt(s[..|s| - 1], counts, term, l);
    }
  }

  /** The accumulator gives an entry exactly to the labels of the sequence
      counted more than once, and none negative when no term is. */
  lemma {:induction false} AccumulateKeys<L(!new)>(s: seq<(L, real)>, counts: Counter<L>, term: (L, real) -> real)
    ensures forall l :: l in Keys(Accumulate(s, counts, term)) <==> Get(counts, l) > 1.0 && Count(s, l) > 0
    ensures Distinct(Keys(Accumulate(s, counts, term)))
    ensures (forall l, e :: term(l, e) >= 0.0) ==> NonNegative(Accumulate(s, counts, term))
  {
    if |s| > 0 {
      var p := s[..|s| - 1];
      AccumulateKeys(p, counts, term);
      var acc := Accumulate(p, counts, term);
      var r := Accumulate(s, counts, term);
      var (l0, e) := s[|s| - 1];
      if Get(counts, l0) > 1.0 {
        AddSum(acc, l0, term(l0, e));
      }
      forall l
        ensures l in Keys(r) <==> Get(counts, l) > 1.0 && Count(s, l) > 0
      {
        assert Count(s, l) == Count(p, l) + if l == l0 then 1 else 0;
      }
    }
  }

  /** With every term of l equal to its variance term for mean m and count
      c, the terms of l add up to its squared deviations divided by c - 1. */
  lemma {:induction false} TermSumVariance<L(!new)>(s: seq<(L, real)>, l: L, term: (L, real) -> real, m: real, c: real)
    requires c > 1.0
    requires forall e :: term(l, e) == VarianceTerm(e, m, c)
    ensures TermSum(s, l, term) == SquaredDeviations(s, l, m) / (c - 1.0)
  {
    if |s| > 0 {
      var p := s[..|s| - 1];
      TermSumVariance(p, l, term, m, c);
      var (lab, e) := s[|s| - 1];
      if lab == l {
        assert term(l, e) == Square(e - m) / (c - 1.0);
        ShareAdds(TermSum(p, l, term), term(l, e), SquaredDeviations(p, l, m), Square(e - m), c - 1.0);
      } else {
        assert TermSum(s, l, term) == TermSum(p, l, term);
        assert SquaredDeviations(s, l, m) == SquaredDeviations(p, l, m);
      }
    } else {
      DivideZero(c - 1.0);
    }
  }

  /** Shares of a common divisor add up. */
  lemma ShareAdds(g: real, v: real, x: real, d: real, k: real)
    requires k != 0.0 && g == x / k && v == d / k
    ensures g + v == (x + d) / k
  {
    DivideSum(x, d, k);
  }

  lemma DivideZero(c: real)
    requires c != 0.0
    ensures 0.0 / c == 0.0
  {
  }

  lemma DivideNonNegative(x: real, c: real)
    requires x >= 0.0 && c > 0.0
    ensures x / c >= 0.0
  {
  }

  lemma DivideSum(a: real, b: real, c: real)
    requires c != 0.0
    ensures a / c + b / c == (a + b) / c
  {
  }

  lemma VarianceTermNonNegative(e: real, m: real, n: real)
    requires n > 1.0
    ensures VarianceTerm(e, m, n) >= 0.0
  {
    if e - m < 0.0 {
      assert Square(e - m) == (m - e) * (m - e);
    }
    DivideNonNegative(Square(e - m), n - 1.0);
  }

  /** The second pass gives a label counted more than once its squared
      deviations from its mean divided by count - 1, and every other label
      nothing. */
  lemma SecondPassAt<L(!new)>(s: seq<(L, real)>, counts: Counter<L>, mean: Counter<L>, l: L)
    ensures Get(SecondPass(s, counts, mean), l) ==
      if Get(counts, l) > 1.0 then SquaredDeviations(s, l, Get(mean, l)) / (Get(counts, l) - 1.0) else 0.0
  {
    var term := VarianceTerms(counts, mean);
    AccumulateAt(s, counts, term, l);
    var c := Get(counts, l);
    if c > 1.0 {
      var m := Get(mean, l);
      assert forall e :: term(l, e) == VarianceTerm(e, m, c);
      TermSumVariance(s, l, term, m, c);
    }
  }

  /** The second pass gives an entry, never negative, exactly to the labels
      of the sequence that were counted more than once. */
  lemma SecondPassKeys<L(!new)>(s: seq<(L, real)>, counts: Counter<L>, mean: Counter<L>)
    ensures forall l :: l in Keys(SecondPass(s, counts, mean)) <==> Get(counts, l) > 1.0 && Count(s, l) > 0
    ensures Distinct(Keys(SecondPass(s, counts, mean)))
    ensures NonNegative(SecondPass(s, counts, mean))
  {
    var term := VarianceTerms(counts, mean);
    forall l, e
      ensures term(l, e) >= 0.0
    {
      if Get(counts, l) > 1.0 {
        VarianceTermNonNegative(e, Get(mean, l), Get(counts, l));
      }
    }
    AccumulateKeys(s, counts, term);
  }

  /** Lines 41-43, inner loop: the row's entries appear, reversed, in the
      accumulated table; nothing else changes. */
  lemma {:induction false} MirrorRowSpec<A(!new), B(!new)>(acc: CounterMap<B, A>, a: A, row: Counter<B>)
    requires Distinct(Keys(row))
    ensures forall b, a' :: (Get(Row(MirrorRow(acc, a, row), b), a') ==
      if a' == a && b in Keys(row) then Get(row, b) else Get(Row(acc, b), a'))
    ensures forall b, a' :: a' in Keys(Row(MirrorRow(acc, a, row), b)) <==>
      (a' == a && b in Keys(row)) || a' in Keys(Row(acc, b))
    decreases |row|
  {
    if |row| > 0 {
      var b0 := row[0].0;
      var acc' := WithRow(acc, b0, Put(Row(acc, b0), a, row[0].1));
      KeysTail(row);
      DistinctTail(Keys(row));
      MirrorRowSpec(acc', a, row[1..]);
      var r := MirrorRow(acc, a, row);
      assert r == MirrorRow(acc', a, row[1..]);
      forall b, a'
        ensures Get(Row(r, b), a') == if a' == a && b in Keys(row) then Get(row, b) else Get(Row(acc, b), a')
        ensures a' in Keys(Row(r, b)) <==> (a' == a && b in Keys(row)) || a' in Keys(Row(acc, b))
      {
        if b == b0 {
          assert Row(acc', b) == Put(Row(acc, b0), a, row[0].1);
        } else {
          assert Row(acc', b) == Row(acc, b);
        }
        if b in Keys(row[1..]) {
          assert b != b0;
        }
      }
    }
  }

  /** Lines 41-43, outer loop: every entry of the table appears, reversed,
      in the accumulated table; nothing else changes. */
  lemma {:induction false} MirrorFromAt<A(!new), B(!new)>(acc: CounterMap<B, A>, t: CounterMap<A, B>, b: B, a: A)
    requires Distinct(Keys(t))
    requires forall a :: Distinct(Keys(Row(t, a)))
    ensures Get(Row(MirrorFrom(acc, t), b), a) ==
      if b in Keys(Row(t, a)) then Get(Row(t, a), b) else Get(Row(acc, b), a)
    ensures a in Keys(Row(MirrorFrom(acc, t), b)) <==> b in Keys(Row(t, a)) || a in Keys(Row(acc, b))
    decreases |t|
  {
    if |t| > 0 {
      var a0 := t[0].0;
      MirrorFromStep(t);
      MirrorRowSpec(acc, a0, t[0].1);
      MirrorFromAt(MirrorRow(acc, a0, t[0].1), t[1..], b, a);
      if a != a0 {
        assert Row(t[1..], a) == Row(t, a);
      } else {
        assert Row(t[1..], a) == [];
      }
    }
  }

  /** The tail of a table with distinct keys and rows keeps both properties,
      and its rows are the table's rows other than the first. */
  lemma MirrorFromStep<A, B>(t: CounterMap<A, B>)
    requires |t| > 0
    requires Distinct(Keys(t))
    requires forall a :: Distinct(Keys(Row(t, a)))
    ensures Distinct(Keys(t[1..])) && t[0].0 !in Keys(t[1..])
    ensures Row(t, t[0].0) == t[0].1 && Distinct(Keys(t[0].1))
    ensures forall a :: Distinct(Keys(Row(t[1..], a)))
  {
    KeysTail(t);
    DistinctTail(Keys(t));
    assert Row(t, t[0].0) == t[0].1;
    forall a
      ensures Distinct(Keys(Row(t[1..], a)))
    {
      if a != t[0].0 {
        assert Row(t[1..], a) == Row(t, a);
      }
    }
  }

  /** The reverse table is an exact mirror: reverse[b][a] == table[a][b] for
      every pair, and reverse[b] has an entry a exactly when table[a] has
      an entry b. */
  lemma MirrorSpec<A(!new), B(!new)>(t: CounterMap<A, B>)
    requires Distinct(Keys(t))
    requires forall a :: Distinct(Keys(Row(t, a)))
    ensures forall a, b :: Get(Row(Mirror(t), b), a) == Get(Row(t, a), b)
    ensures forall a, b :: a in Keys(Row(Mirror(t), b)) <==> b in Keys(Row(t, a))
  {
    forall a, b
      ensures Get(Row(Mirror(t), b), a) == Get(Row(t, a), b)
      ensures a in Keys(Row(Mirror(t), b)) <==> b in Keys(Row(t, a))
    {
      MirrorFromAt([], t, b, a);
    }
  }

  // What train promises about the model it builds.

  /** Lines 29-38: every populated row of the trained transition table is a
      probability distribution (entries in [0, 1] summing to 1) holding the
      fraction of its source's transitions that reach each destination; a
      source that never occurs has no row. */
  lemma TrainTransitions<L(!new)>(s: seq<(L, real)>)
    ensures forall a :: a in Keys(Train(s).transition) <==> OutCount(s, a) > 0
    ensures forall a :: a in Keys(Train(s).transition) ==> Sum(Row(Train(s).transition, a)) == 1.0
    ensures forall a, i :: 0 <= i < |Row(Train(s).transition, a)| ==> 0.0 <= Row(Train(s).transition, a)[i].1 <= 1.0
    ensures forall a, b :: OutCount(s, a) > 0 ==>
      Get(Row(Train(s).transition, a), b) == TransitionCount(s, a, b) as real / OutCount(s, a) as real
  {
    TransitionTallies(s);
    TransitionRows(s);
    TransitionRowsValid(s);
    var raw := FirstPass(s).transitions;
    var t := Train(s).transition;
    assert t == NormalizeRows(raw);
    forall a
      ensures Row(t, a) == Normalize(Row(raw, a))
    {
    }
  }

  /** Lines 41-43: reverse[b][a] == transition[a][b] for every pair, and
      reverse[b] has an entry a exactly when transition[a] has an entry b. */
  lemma TrainReverse<L(!new)>(s: seq<(L, real)>)
    ensures forall a, b :: Get(Row(Train(s).reverse, b), a) == Get(Row(Train(s).transition, a), b)
    ensures forall a, b :: a in Keys(Row(Train(s).reverse, b)) <==> b in Keys(Row(Train(s).transition, a))
  {
    TransitionRows(s);
    TransitionRowsValid(s);
    var raw := FirstPass(s).transitions;
    var t := Train(s).transition;
    assert t == NormalizeRows(raw);
    forall a
      ensures Distinct(Keys(Row(t, a)))
    {
      assert Row(t, a) == Normalize(Row(raw, a));
    }
    MirrorSpec(t);
  }

  /** Lines 46-47: a label has a mean exactly when it occurs, and the mean is
      the sum of its emissions divided by the number of its occurrences. */
  lemma TrainMeans<L(!new)>(s: seq<(L, real)>)
    ensures forall l :: l in Keys(Train(s).mean) <==> Count(s, l) > 0
    ensures forall l :: Count(s, l) > 0 ==> Get(Train(s).mean, l) == EmissionSum(s, l) / Count(s, l) as real
  {
    LabelTallies(s);
  }

  /** Lines 49-52 and 57: the variance accumulator of a label seen more than
      once is the sum of its squared deviations from the mean divided by
      count - 1, never negative; no other label has one, and the labels the
      decoder ranges over are exactly those seen more than once. */
  lemma TrainVariance<L(!new)>(s: seq<(L, real)>)
    ensures forall l :: (Get(Train(s).variance, l) ==
      if Count(s, l) > 1 then SquaredDeviations(s, l, Get(Train(s).mean, l)) / (Count(s, l) - 1) as real else 0.0)
    ensures NonNegative(Train(s).variance)
    ensures forall l :: l in Train(s).labels <==> Count(s, l) > 1
    ensures Distinct(Train(s).labels)
  {
    LabelTallies(s);
    var t := FirstPass(s);
    var m := Train(s);
    forall l
      ensures Get(m.variance, l) ==
        if Count(s, l) > 1 then SquaredDeviations(s, l, Get(m.mean, l)) / (Count(s, l) - 1) as real else 0.0
    {
      TrainVarianceAt(s, l);
    }
    SecondPassKeys(s, t.counts, m.mean);
    assert m.variance == SecondPass(s, t.counts, m.mean);
  }

  lemma TrainVarianceAt<L(!new)>(s: seq<(L, real)>, l: L)
    ensures Get(Train(s).variance, l) ==
      if Count(s, l) > 1 then SquaredDeviations(s, l, Get(Train(s).mean, l)) / (Count(s, l) - 1) as real else 0.0
  {
    var counts := FirstPass(s).counts;
    var mean := Train(s).mean;
    assert Train(s).variance == SecondPass(s, counts, mean);
    assert Get(counts, l) == Count(s, l) as real by { LabelTallies(s); }
    SecondPassAt(s, counts, mean, l);
  }

  /** What decoding relies on: the labels are distinct and no reverse
      transition entry is negative. */
  ghost predicate Trained<L(!new)>(m: Model<L>)
  {
    && Distinct(m.labels)
    && forall l, p :: Get(Row(m.reverse, l), After(p)) >= 0.0
  }

  lemma TrainIsTrained<L(!new)>(s: seq<(L, real)>)
    ensures Trained(Train(s))
  {
    TrainVariance(s);
    TrainReverse(s);
    TrainTransitions(s);
    var m := Train(s);
    forall l, p
      ensures Get(Row(m.reverse, l), After(p)) >= 0.0
    {
      assert NonNegative(Row(m.transition, After(p)));
    }
  }
}

=== FILE: viterbi.dfy ===
/** The Viterbi lattice of HiddenMarkovModel.label (nlp/hmm.py, lines
    73-105) and its backtracking, over a fixed label order.

    `trans(l, p)` is the probability of stepping from p into l, read from
    reverse_transition[l][p] with a missing entry reading as 0. `w(t, l)` is
    the weight of entering l at row t + 1: the emission likelihood of the
    t-th observation in textbook Viterbi, and 1.0 in the source, which
    computes that likelihood (line 86) but never uses it. */
module Viterbi {
  import opened Counters

  /** The product of a score and a probability: the factor
      `scores[pos][p] * reverse_transition[l][p]` of line 92, and the
      weight of a label times its best product at line 93. */
  function Weigh(score: real, p: real): real
  {
    score * p
  }

  lemma WeighMonotone(a: real, b: real, p: real)
    requires a <= b && p >= 0.0
    ensures Weigh(a, p) <= Weigh(b, p) && Weigh(p, a) <= Weigh(p, b)
  {
  }

  /** Every label counted once (line 81). */
  function Ones<L>(labels: seq<L>): (c: Counter<L>)
    ensures |c| == |labels| && Sum(c) == |labels| as real
    ensures forall i :: 0 <= i < |c| ==> c[i] == (labels[i], 1.0)
  {
    if |labels| == 0 then []
    else
      var rest := Ones(labels[1..]);
      var c := [(labels[0], 1.0)] + rest;
      assert c[1..] == rest;
      c
  }

  /** Row 0 of the lattice, lines 80-82: the uniform distribution over the labels. */
  function Prior<L(==,!new)>(labels: seq<L>): (row: Counter<L>)
    requires |labels| > 0
    ensures |row| == |labels| && Sum(row) == 1.0
    ensures forall i :: 0 <= i < |row| ==> row[i].0 == labels[i] && row[i].1 == 1.0 / |labels| as real
  {
    var c := Ones(labels);
    assert Normalize(c) == Divide(c, Sum(c));
    DivideSpec(c, Sum(c));
    Normalize(c)
  }

  /** scores[pos] * reverse_transition[l] (line 92): the pointwise product
      of the score row and the probabilities of stepping into l, over the
      keys of the score row; a key missing from either factor reads as 0. */
  function Products<L(==,!new)>(prev: Counter<L>, trans: (L, L) -> real, l: L): (c: Counter<L>)
    ensures Keys(c) == Keys(prev)
    ensures forall p :: Get(c, p) == Weigh(Get(prev, p), trans(l, p))
  {
    var c := seq(|prev|, i requires 0 <= i < |prev| => (prev[i].0, Weigh(prev[i].1, trans(l, prev[i].0))));
    assert forall p :: Get(c, p) == Weigh(Get(prev, p), trans(l, p)) by {
      forall p
        ensures Get(c, p) == Weigh(Get(prev, p), trans(l, p))
      {
        PointwiseGet(prev, c, trans, l, p);
      }
    }
    c
  }

  /** A row built entry by entry from prev, each value weighed by the
      probability of stepping from its key into l, finds at every key the
      weighed lookup of prev, 0 at a missing key included. */
  lemma {:induction false} PointwiseGet<L>(prev: Counter<L>, c: Counter<L>, trans: (L, L) -> real, l: L, p: L)
    requires |c| == |prev|
    requires forall i :: 0 <= i < |c| ==> c[i] == (prev[i].0, Weigh(prev[i].1, trans(l, prev[i].0)))
    ensures Get(c, p) == Weigh(Get(prev, p), trans(l, p))
    decreases |prev|
  {
    if |prev| > 0 && prev[0].0 != p {
      PointwiseGet(prev[1..], c[1..], trans, l, p);
    }
  }

  /** transition_scores.arg_max() (line 94): the first predecessor of l, in
      row order, with the largest product. */
  function Best<L(==,!new)>(prev: Counter<L>, trans: (L, L) -> real, l: L): (b: L)
    requires |prev| > 0
    ensures b in Keys(prev)
  {
    var c := Products(prev, trans, l);
    var i := ArgMaxIndex(c);
    assert Keys(prev)[i] == c[i].0;
    c[i].0
  }

  /** Lines 91-93: score row t + 1, one entry per label in label order, each
      the largest product over row t times the label's weight. */
  function NextScores<L(==,!new)>(prev: Counter<L>, labels: seq<L>, trans: (L, L) -> real, w: (nat, L) -> real, t: nat): (row: Counter<L>)
    requires |prev| > 0
    ensures |row| == |labels|
    ensures forall i :: 0 <= i < |row| ==> row[i].0 == labels[i]
  {
    seq(|labels|, i requires 0 <= i < |labels| => (labels[i], Weigh(w(t, labels[i]), MaxValue(Products(prev, trans, labels[i])))))
  }

  /** Line 94: the backpointer row, the best predecessor of every label. */
  function NextBack<L(==,!new)>(prev: Counter<L>, labels: seq<L>, trans: (L, L) -> real): (back: map<L, L>)
    requires |prev| > 0
    ensures forall l :: l in labels ==> l in back
    ensures forall v :: v in back.Values ==> v in Keys(prev)
  {
    map l | l in labels :: Best(prev, trans, l)
  }

  /** scores[t]: row 0 is the prior, row t + 1 follows from row t. */
  function ScoreRow<L(==,!new)>(labels: seq<L>, trans: (L, L) -> real, w: (nat, L) -> real, t: nat): (row: Counter<L>)
    requires |labels| > 0
    ensures |row| == |labels|
    ensures forall i :: 0 <= i < |row| ==> row[i].0 == labels[i]
  {
    if t == 0 then Prior(labels)
    else NextScores(ScoreRow(labels, trans, w, t - 1), labels, trans, w, t - 1)
  }

  /** backtrack[t]: the best predecessor, in row t, of every label of row t + 1. */
  function BackRow<L(==,!new)>(labels: seq<L>, trans: (L, L) -> real, w: (nat, L) -> real, t: nat): (back: map<L, L>)
    requires |labels| > 0
    ensures forall l :: l in labels ==> l in back
    ensures forall v :: v in back.Values ==> v in labels
  {
    var prev := ScoreRow(labels, trans, w, t);
    assert Keys(prev) == labels;
    NextBack(prev, labels, trans)
  }

  function BackRows<L(==,!new)>(labels: seq<L>, trans: (L, L) -> real, w: (nat, L) -> real, n: nat): (back: seq<map<L, L>>)
    requires |labels| > 0
    ensures |back| == n && Closed(back, labels)
    ensures forall t :: 0 <= t < n ==> back[t] == BackRow(labels, trans, w, t)
  {
    seq(n, t requires 0 <= t < n => BackRow(labels, trans, w, t))
  }

  /** Every backpointer row maps every label, and only to labels. */
  predicate Closed<L(==)>(back: seq<map<L, L>>, labels: seq<L>)
  {
    && (forall j, l :: 0 <= j < |back| && l in labels ==> l in back[j])
    && (forall j, v :: 0 <= j < |back| && v in back[j].Values ==> v in labels)
  }

  /** path[k] is the backpointer, in row lo + k + 1, of path[k + 1]: the
      labels of a walk collected from row lo + 1 on. */
  predicate LinkedAt<L(==)>(back: seq<map<L, L>>, lo: nat, path: seq<L>, k: int)
  {
    && 0 <= k && k + 1 < |path| && lo + k + 1 < |back|
    && path[k + 1] in back[lo + k + 1] && path[k] == back[lo + k + 1][path[k + 1]]
  }

  /** scores[-1].arg_max() (line 98): the first label of the last row with the largest score. */
  function Final<L(==,!new)>(labels: seq<L>, trans: (L, L) -> real, w: (nat, L) -> real, n: nat): (f: L)
    requires |labels| > 0
    ensures f in labels
  {
    var row := ScoreRow(labels, trans, w, n);
    var i := ArgMaxIndex(row);
    assert row[i].0 == labels[i];
    row[i].0
  }

  /** Lines 97-105: starting from `current` at row hi, for pos = hi - 1 down
      to lo, collect the current label and step to backtrack[pos][current];
      the collected labels come back in chronological order. The label at
      row lo + k + 1 is at index k. */
  function Walk<L(==)>(back: seq<map<L, L>>, labels: seq<L>, lo: nat, hi: nat, current: L): (path: seq<L>)
    requires hi <= |back| && Closed(back, labels) && current in labels
    ensures |path| == if hi <= lo then 0 else hi - lo
    ensures forall k :: 0 <= k < |path| ==> path[k] in labels
    ensures lo < hi ==> path[|path| - 1] == current
    ensures forall k :: 0 <= k < |path| - 1 ==> LinkedAt(back, lo, path, k)
    decreases hi
  {
    if hi <= lo then []
    else
      var rest := Walk(back, labels, lo, hi - 1, back[hi - 1][current]);
      LinkedExtend(back, lo, rest, current);
      rest + [current]
  }

  lemma WalkStep<L>(back: seq<map<L, L>>, labels: seq<L>, lo: nat, hi: nat, current: L)
    requires hi <= |back| && Closed(back, labels) && current in labels && lo < hi
    ensures current in back[hi - 1] && back[hi - 1][current] in labels
    ensures Walk(back, labels, lo, hi, current) == Walk(back, labels, lo, hi - 1, back[hi - 1][current]) + [current]
  {
  }

  /** Appending the next label keeps a linked walk linked. */
  lemma LinkedExtend<L>(back: seq<map<L, L>>, lo: nat, rest: seq<L>, x: L)
    requires forall k :: 0 <= k < |rest| - 1 ==> LinkedAt(back, lo, rest, k)
    requires |rest| > 0 ==> LinkedAt(back, lo, rest + [x], |rest| - 1)
    ensures forall k :: 0 <= k < |rest| ==> LinkedAt(back, lo, rest + [x], k)
  {
    var path := rest + [x];
    forall k | 0 <= k < |rest| - 1
      ensures LinkedAt(back, lo, path, k)
    {
      assert LinkedAt(back, lo, rest, k);
      assert path[k] == rest[k] && path[k + 1] == rest[k + 1];
    }
  }

  /** label(emission_sequence) for n observations: the loop at line 100 runs
      pos from n - 1 down to 1, so the labels returned are those of rows 2
      to n of the backtracked path, n - 1 of them, each the backpointer of
      the next and the last the best label of the last row. */
  function Decode<L(==,!new)>(labels: seq<L>, trans: (L, L) -> real, w: (nat, L) -> real, n: nat): (path: seq<L>)
    requires |labels| > 0
    ensures |path| == if n == 0 then 0 else n - 1
    ensures forall k :: 0 <= k < |path| ==> path[k] in labels
    ensures n >= 2 ==> path[|path| - 1] == Final(labels, trans, w, n)
    ensures forall k :: 0 <= k < |path| - 1 ==> LinkedAt(BackRows(labels, trans, w, n), 1, path, k)
  {
    Walk(BackRows(labels, trans, w, n), labels, 1, n, Final(labels, trans, w, n))
  }

  /** The corrected backtracking: pos runs from n - 1 down to 0, giving the
      labels of rows 1 to n, one per observation. */
  function DecodeAll<L(==,!new)>(labels: seq<L>, trans: (L, L) -> real, w: (nat, L) -> real, n: nat): (path: seq<L>)
    requires |labels| > 0
    ensures |path| == n
    ensures forall k :: 0 <= k < |path| ==> path[k] in labels
    ensures n >= 1 ==> path[|path| - 1] == Final(labels, trans, w, n)
    ensures forall k :: 0 <= k < |path| - 1 ==> LinkedAt(BackRows(labels, trans, w, n), 0, path, k)
  {
    Walk(BackRows(labels, trans, w, n), labels, 0, n, Final(labels, trans, w, n))
  }

  // Paths through the lattice and their scores.

  /** The path through the backpointer rows that ends in label c at row t:
      c preceded by the path ending in c's backpointer at row t - 1. */
  function Trace<L(==)>(back: seq<map<L, L>>, labels: seq<L>, t: nat, c: L): (path: seq<L>)
    requires t <= |back| && Closed(back, labels) && c in labels
    ensures |path| == t + 1 && path[t] == c
  {
    if t == 0 then [c]
    else Trace(back, labels, t - 1, back[t - 1][c]) + [c]
  }

  /** The backtracked path of the whole lattice, rows 0 to n. */
  function BestPath<L(==,!new)>(labels: seq<L>, trans: (L, L) -> real, w: (nat, L) -> real, n: nat): (path: seq<L>)
    requires |labels| > 0
    ensures |path| == n + 1 && path[n] == Final(labels, trans, w, n)
  {
    Trace(BackRows(labels, trans, w, n), labels, n, Final(labels, trans, w, n))
  }

  /** The score of a label path x through the lattice: the prior of x[0],
      then for every step from x[k - 1] into x[k] the transition
      probability and the weight of x[k] at row k. */
  function PathScore<L(==,!new)>(labels: seq<L>, trans: (L, L) -> real, w: (nat, L) -> real, x: seq<L>): real
    requires |labels| > 0 && |x| > 0
  {
    if |x| == 1 then Get(Prior(labels), x[0])
    else
      var k := |x| - 1;
      Weigh(w(k - 1, x[k]), Weigh(PathScore(labels, trans, w, x[..k]), trans(x[k], x[k - 1])))
  }

  // The recurrence, in terms of maxima.

  /** scores[t + 1][l] is l's weight times the best product over row t, and
      backtrack[t][l] is a label of row t attaining that product. */
  lemma Recurrence<L(!new)>(labels: seq<L>, trans: (L, L) -> real, w: (nat, L) -> real, t: nat, l: L)
    requires |labels| > 0 && Distinct(labels) && l in labels
    ensures BackRow(labels, trans, w, t)[l] in labels
    ensures Get(ScoreRow(labels, trans, w, t + 1), l) ==
      Weigh(w(t, l), Weigh(Get(ScoreRow(labels, trans, w, t), BackRow(labels, trans, w, t)[l]), trans(l, BackRow(labels, trans, w, t)[l])))
    ensures forall p :: p in labels ==>
      Weigh(Get(ScoreRow(labels, trans, w, t), p), trans(l, p)) <=
      Weigh(Get(ScoreRow(labels, trans, w, t), BackRow(labels, trans, w, t)[l]), trans(l, BackRow(labels, trans, w, t)[l]))
  {
    var prev := ScoreRow(labels, trans, w, t);
    assert Keys(prev) == labels;
    BestAttains(prev, trans, l);
    assert BackRow(labels, trans, w, t)[l] == Best(prev, trans, l);
    NextScoresAt(prev, labels, trans, w, t, l);
  }

  /** The entry of label l in score row t + 1. */
  lemma NextScoresAt<L(!new)>(prev: Counter<L>, labels: seq<L>, trans: (L, L) -> real, w: (nat, L) -> real, t: nat, l: L)
    requires |prev| > 0 && Distinct(labels) && l in labels
    ensures Get(NextScores(prev, labels, trans, w, t), l) == Weigh(w(t, l), MaxValue(Products(prev, trans, l)))
  {
    var next := NextScores(prev, labels, trans, w, t);
    var k :| 0 <= k < |labels| && labels[k] == l;
    assert Distinct(Keys(next)) by { assert Keys(next) == labels; }
    assert Get(next, next[k].0) == next[k].1 by { GetAt(next, k); }
  }

  /** The best predecessor attains the largest product, which bounds every product. */
  lemma BestAttains<L(!new)>(prev: Counter<L>, trans: (L, L) -> real, l: L)
    requires |prev| > 0 && Distinct(Keys(prev))
    ensures Weigh(Get(prev, Best(prev, trans, l)), trans(l, Best(prev, trans, l))) == MaxValue(Products(prev, trans, l))
    ensures forall p :: p in Keys(prev) ==> Weigh(Get(prev, p), trans(l, p)) <= MaxValue(Products(prev, trans, l))
  {
    var c := Products(prev, trans, l);
    assert Distinct(Keys(c));
    var i := ArgMaxIndex(c);
    assert Best(prev, trans, l) == c[i].0;
    assert Get(c, c[i].0) == c[i].1 == MaxValue(c) by { GetAt(c, i); }
    forall p | p in Keys(prev)
      ensures Weigh(Get(prev, p), trans(l, p)) <= MaxValue(c)
    {
      var j :| 0 <= j < |c| && Keys(c)[j] == p;
      assert Get(c, p) == c[j].1 by { GetAt(c, j); }
    }
  }

  /** The label chosen for the last row has the largest score of that row. */
  lemma FinalIsBest<L(!new)>(labels: seq<L>, trans: (L, L) -> real, w: (nat, L) -> real, n: nat, l: L)
    requires |labels| > 0 && Distinct(labels) && l in labels
    ensures Get(ScoreRow(labels, trans, w, n), l) <= Get(ScoreRow(labels, trans, w, n), Final(labels, trans, w, n))
  {
    var row := ScoreRow(labels, trans, w, n);
    var i := ArgMaxIndex(row);
    var j :| 0 <= j < |labels| && labels[j] == l;
    assert Distinct(Keys(row)) by { assert Keys(row) == labels; }
    assert Get(row, row[i].0) == row[i].1 by { GetAt(row, i); }
    assert Get(row, row[j].0) == row[j].1 by { GetAt(row, j); }
  }

  // Optimality.

  /** The path that follows `pick` back from label c at row t, where
      pick(j, l) is the label at row j chosen for l at row j + 1. */
  function Follow<L>(pick: (nat, L) -> L, t: nat, c: L): (path: seq<L>)
    ensures |path| == t + 1 && path[t] == c
  {
    if t == 0 then [c] else Follow(pick, t - 1, pick(t - 1, c)) + [c]
  }

  /** The lattice's own choice: backtrack[j][l], for l a label. */
  function Choice<L(==,!new)>(labels: seq<L>, trans: (L, L) -> real, w: (nat, L) -> real): (nat, L) -> L
    requires |labels| > 0
  {
    (j: nat, l: L) => var row := BackRow(labels, trans, w, j); if l in row then row[l] else l
  }

  /** The path along the lattice's backpointers that ends in c at row t
      scores exactly scores[t][c]. */
  lemma {:induction false} ChoiceScore<L(!new)>(labels: seq<L>, trans: (L, L) -> real, w: (nat, L) -> real, t: nat, c: L)
    requires |labels| > 0 && Distinct(labels) && c in labels
    ensures PathScore(labels, trans, w, Follow(Choice(labels, trans, w), t, c)) == Get(ScoreRow(labels, trans, w, t), c)
  {
    if t > 0 {
      var pick := Choice(labels, trans, w);
      var u := t - 1;
      var b := BackRow(labels, trans, w, u)[c];
      assert pick(u, c) == b;
      Recurrence(labels, trans, w, u, c);
      assert u + 1 == t;
      ChoiceScore(labels, trans, w, u, b);
      var y := PathStep(labels, trans, w, Follow(pick, t, c), t);
      assert y == Follow(pick, u, b);
    }
  }

  /** Reading backpointer rows that agree with `pick` follows `pick`. */
  lemma {:induction false} TraceFollows<L>(back: seq<map<L, L>>, labels: seq<L>, pick: (nat, L) -> L, t: nat, c: L)
    requires t <= |back| && Closed(back, labels) && c in labels
    requires forall j, l :: 0 <= j < |back| && l in back[j] ==> back[j][l] == pick(j, l)
    ensures Trace(back, labels, t, c) == Follow(pick, t, c)
  {
    if t > 0 {
      var b := TraceStep(back, labels, t, c);
      TraceFollows(back, labels, pick, t - 1, b);
    }
  }

  /** The lattice's backpointer rows agree with its choice. */
  lemma BackRowsChoose<L(!new)>(labels: seq<L>, trans: (L, L) -> real, w: (nat, L) -> real, n: nat)
    requires |labels| > 0
    ensures forall j, l :: 0 <= j < n && l in BackRows(labels, trans, w, n)[j] ==>
      BackRows(labels, trans, w, n)[j][l] == Choice(labels, trans, w)(j, l)
  {
  }

  /** One step back along the backpointers. */
  lemma TraceStep<L>(back: seq<map<L, L>>, labels: seq<L>, t: nat, c: L) returns (b: L)
    requires 0 < t <= |back| && Closed(back, labels) && c in labels
    ensures c in back[t - 1] && b == back[t - 1][c] && b in labels
    ensures Trace(back, labels, t, c) == Trace(back, labels, t - 1, b) + [c]
  {
    b := back[t - 1][c];
  }

  /** With no negative weights or transition probabilities, no path of t + 1
      labels ending in l scores more than scores[t][l]. */
  lemma {:induction false} ScoreBound<L(!new)>(labels: seq<L>, trans: (L, L) -> real, w: (nat, L) -> real, x: seq<L>)
    requires |labels| > 0 && Distinct(labels)
    requires forall t: nat, l :: l in labels ==> w(t, l) >= 0.0
    requires forall l, p :: l in labels && p in labels ==> trans(l, p) >= 0.0
    requires |x| > 0 && forall i :: 0 <= i < |x| ==> x[i] in labels
    ensures PathScore(labels, trans, w, x) <= Get(ScoreRow(labels, trans, w, |x| - 1), x[|x| - 1])
  {
    if |x| > 1 {
      var k := |x| - 1;
      var y := PathStep(labels, trans, w, x, k);
      ScoreBound(labels, trans, w, y);
      var prev := ScoreRow(labels, trans, w, k - 1);
      var b := BackRow(labels, trans, w, k - 1)[x[k]];
      Recurrence(labels, trans, w, k - 1, x[k]);
      var py := PathScore(labels, trans, w, y);
      WeighMonotone(py, Get(prev, x[k - 1]), trans(x[k], x[k - 1]));
      WeighMonotone(Weigh(py, trans(x[k], x[k - 1])), Weigh(Get(prev, b), trans(x[k], b)), w(k - 1, x[k]));
    }
  }

  /** The last step of a path's score, for a path of t + 1 labels. */
  lemma PathStep<L(!new)>(labels: seq<L>, trans: (L, L) -> real, w: (nat, L) -> real, x: seq<L>, t: nat) returns (y: seq<L>)
    requires |labels| > 0 && |x| == t + 1 && t > 0
    ensures y == x[..t] && |y| == t && y[t - 1] == x[t - 1]
    ensures forall i :: 0 <= i < |y| ==> y[i] == x[i]
    ensures PathScore(labels, trans, w, x) == Weigh(w(t - 1, x[t]), Weigh(PathScore(labels, trans, w, y), trans(x[t], x[t - 1])))
  {
    y := x[..t];
  }

  /** Viterbi's promise: with no negative weights or transition
      probabilities, no path of n + 1 labels scores more than the
      backtracked path. */
  lemma BestPathOptimal<L(!new)>(labels: seq<L>, trans: (L, L) -> real, w: (nat, L) -> real, n: nat, x: seq<L>)
    requires |labels| > 0 && Distinct(labels)
    requires forall t: nat, l :: l in labels ==> w(t, l) >= 0.0
    requires forall l, p :: l in labels && p in labels ==> trans(l, p) >= 0.0
    requires |x| == n + 1 && forall i :: 0 <= i < |x| ==> x[i] in labels
    ensures PathScore(labels, trans, w, x) <= PathScore(labels, trans, w, BestPath(labels, trans, w, n))
  {
    ScoreBound(labels, trans, w, x);
    BackRowsChoose(labels, trans, w, n);
    TraceFollows(BackRows(labels, trans, w, n), labels, Choice(labels, trans, w), n, Final(labels, trans, w, n));
    ChoiceScore(labels, trans, w, n, Final(labels, trans, w, n));
    FinalIsBest(labels, trans, w, n, x[n]);
  }

  /** Walking back from row hi to row lo + 1 reads off rows lo + 1 to hi of
      the path ending in the starting label. */
  lemma {:induction false} WalkFollowsTrace<L>(back: seq<map<L, L>>, labels: seq<L>, lo: nat, hi: nat, c: L)
    requires lo <= hi <= |back| && Closed(back, labels) && c in labels
    ensures Walk(back, labels, lo, hi, c) == Trace(back, labels, hi, c)[lo + 1..]
  {
    if lo < hi {
      var b := TraceStep(back, labels, hi, c);
      WalkStep(back, labels, lo, hi, c);
      WalkFollowsTrace(back, labels, lo, hi - 1, b);
      SliceAppend(Trace(back, labels, hi - 1, b), c, lo + 1);
    }
  }

  lemma SliceAppend<L>(y: seq<L>, c: L, i: nat)
    requires i <= |y|
    ensures (y + [c])[i..] == y[i..] + [c]
  {
  }

  /** The source's result is the backtracked path without its first two
      rows; the corrected one drops only the prior row. */
  lemma DecodeIsBestPathSuffix<L(!new)>(labels: seq<L>, trans: (L, L) -> real, w: (nat, L) -> real, n: nat)
    requires |labels| > 0
    ensures n >= 1 ==> Decode(labels, trans, w, n) == BestPath(labels, trans, w, n)[2..]
    ensures DecodeAll(labels, trans, w, n) == BestPath(labels, trans, w, n)[1..]
  {
    var back := BackRows(labels, trans, w, n);
    if n >= 1 {
      WalkFollowsTrace(back, labels, 1, n, Final(labels, trans, w, n));
    }
    WalkFollowsTrace(back, labels, 0, n, Final(labels, trans, w, n));
  }
}
